=== FILE: README.md ===
# Morph-aware Blade compilation, modelled in Dafny

Livewire morphs the DOM after each request. It needs to know where Blade
control-flow blocks start and end, and where loop iterations are. It learns
this from a Blade precompiler, which rewrites a template's source before Blade
compiles it:

- every opening block directive (`@if`, `@foreach`, `@forelse`, …, plus every
  custom condition registered with Blade) is prefixed with a
  `<!--[if BLOCK]><![endif]-->` marker;
- every closing directive (`@endif`, `@endforeach`, …) is suffixed with a
  `<!--[if ENDBLOCK]><![endif]-->` marker;
- `@foreach`, `@forelse` and `@while` loops also get loop hooks
  (`openLoop`/`startLoop` at the head, `endLoop`/`closeLoop` at the end).
  For `@forelse`, the end of the loop is its `@empty`.

Each group of markers is wrapped in a PHP guard, so it only renders inside a
Livewire component. The two switches (conditional markers, loop markers) are
parameters (`Rewrite.Flags`).

The project has one module per concern of the precompiler:

- `Text`: character classes, caseless comparison, and Laravel's
  `Str::after`/`before`/`contains`/`endsWith` and PHP's `rtrim`. `Embeds`
  says that one text survives inside another with only insertions.
- `Directives`: the opening → closing directive table and how custom
  conditions are added to it.
- `Locator`: the generic directive-head pattern as a left-to-right scanner.
- `Balance`: the token-based parenthesis check.
- `Classifier`: the opening, closing, loop-`@empty`, loop and end-of-loop
  patterns.
- `Marking`: which markers go where, and the proof that they pair up.
- `Rewrite`: the three rewriters and the `preg_replace` they run.
- `Compiler`: the driver loop over all heads, and the precompiler closure.

## Model

| member | source | states |
|---|---|---|
| Directives.BaseIsPaired | src/Features/SupportMorphAwareBladeCompilation/SupportMorphAwareBladeCompilation.php:36-49 | The twelve fixed directives have distinct names. Each `@name` is paired with `@endname`. |
| Directives.Lookup | src/Features/SupportMorphAwareBladeCompilation/SupportMorphAwareBladeCompilation.php:36-49 | A name has a closing partner exactly when it is a key of the table, and the partner is the one stored with it. |
| Directives.LookupPaired | src/Features/SupportMorphAwareBladeCompilation/SupportMorphAwareBladeCompilation.php:36-56 | In a table of pairs, every opening name looks up `@end` followed by its own name. |
| Directives.Put | src/Features/SupportMorphAwareBladeCompilation/SupportMorphAwareBladeCompilation.php:55 | PHP array assignment. An existing key keeps its position and takes the new value; a new key is appended. Afterwards the key looks up the new value and keys stay unique. |
| Directives.RegisterStep | src/Features/SupportMorphAwareBladeCompilation/SupportMorphAwareBladeCompilation.php:54-56 | Registering one more condition keeps the table's invariant: unique keys, all pairs, the fixed directives first, and every key either fixed or a registered condition. |
| Directives.RegisterConditions | src/Features/SupportMorphAwareBladeCompilation/SupportMorphAwareBladeCompilation.php:51-56 | The table holds the fixed directives in their order. Every registered condition `n` maps `@n` to `@endn`. No other key appears. |
| Directives.Openings | src/Features/SupportMorphAwareBladeCompilation/SupportMorphAwareBladeCompilation.php:71 | `array_keys`: the opening names in table order. A name is among them exactly when it is a key of the table. |
| Directives.Closings | src/Features/SupportMorphAwareBladeCompilation/SupportMorphAwareBladeCompilation.php:72 | `array_values`: the closing names in table order. A name is among them exactly when some entry pairs it with an opening name. |
| Locator.HeadAt | src/Features/SupportMorphAwareBladeCompilation/SupportMorphAwareBladeCompilation.php:80-84 | The head pattern matches at `i` exactly when an `@` there is not preceded by a word character and is followed, after at most one more `@`, by a word character. The match starts at `i` and occurs there. |
| Locator.HeadAtParts | src/Features/SupportMorphAwareBladeCompilation/SupportMorphAwareBladeCompilation.php:81 | A match's text is `@`, then its name, its blanks and its parenthesised group, concatenated. |
| Locator.HeadAtMaximal | src/Features/SupportMorphAwareBladeCompilation/SupportMorphAwareBladeCompilation.php:81 | The name is as long as it can be, and so are the blanks after it (`\w+` and `[ \t]*` are greedy). A name with no `::` part is not followed by `::` and a word character, so the optional `(?:::\w+)` group is taken whenever it can be. |
| Locator.HeadAtExpr | src/Features/SupportMorphAwareBladeCompilation/SupportMorphAwareBladeCompilation.php:81 | The lazy expression group ends at the first `)`, so it never contains one. It is absent only when no `(` follows the blanks or no `)` follows that `(`. |
| Locator.MatchAll | src/Features/SupportMorphAwareBladeCompilation/SupportMorphAwareBladeCompilation.php:80-84 | `preg_match_all`: every reported head is the pattern's match at its own position, in order, without overlap. Every position where a head could start lies inside a reported match. There is no match exactly when no head can start. |
| Text.After | src/Features/SupportMorphAwareBladeCompilation/SupportMorphAwareBladeCompilation.php:105 | Laravel `Str::after`: when the search text occurs, the text after its first occurrence, which is strictly shorter than the subject; the whole subject when the search text is empty or absent. |
| Text.Before | src/Features/SupportMorphAwareBladeCompilation/SupportMorphAwareBladeCompilation.php:109 | Laravel `Str::before` for `)`: a prefix of the subject that holds no `)`, and stops at the first `)` when there is one. |
| Text.RTrim | src/Features/SupportMorphAwareBladeCompilation/SupportMorphAwareBladeCompilation.php:195 | PHP `rtrim`: a prefix of its argument that does not end in white space or a NUL, with only such characters cut off. |
| Balance.Lex | src/Features/SupportMorphAwareBladeCompilation/SupportMorphAwareBladeCompilation.php:351 | Tokenising never yields more tokens than characters, and non-empty text yields at least one token. |
| Balance.HasEvenNumberOfParentheses | src/Features/SupportMorphAwareBladeCompilation/SupportMorphAwareBladeCompilation.php:349-369 | The counting loop returns true exactly when the last token is `)` and the `(` and `)` tokens are equally many. |
| Balance.BalancedQuoteFree | src/Features/SupportMorphAwareBladeCompilation/SupportMorphAwareBladeCompilation.php:349-369 | For an expression without quotes, the check is a character count: it ends with `)` and has as many `(` as `)`. |
| Balance.QuotedIsOneToken | src/Features/SupportMorphAwareBladeCompilation/SupportMorphAwareBladeCompilation.php:351 | A quoted string literal whose body holds neither its quote character nor a backslash is a single token, whatever parentheses it holds, so its parentheses are not counted. |
| Balance.Wrapped | src/Features/SupportMorphAwareBladeCompilation/SupportMorphAwareBladeCompilation.php:97-122 | For a head without quotes or parentheses and an `inner` without quotes, the head followed by `(inner)` passes the check exactly when `inner`'s own parentheses pair up. So a lazy match cut short at a nested call's `)` is rejected and gets extended. |
| Balance.LexAppendQuoteFree | src/Features/SupportMorphAwareBladeCompilation/SupportMorphAwareBladeCompilation.php:351 | Quote-free text tokenises the same whatever follows it. |
| Classifier.Classify | src/Features/SupportMorphAwareBladeCompilation/SupportMorphAwareBladeCompilation.php:73-77 | The branch chain: opener exactly when the opening pattern matches; closer exactly when only the closing one does; loop `@empty` exactly when neither does and `@empty` appears with no `(` after it. `HeadOpens` and `HeadCloses` say what the two patterns mean for a single head. |
| Classifier.NoAtUnrelated | src/Features/SupportMorphAwareBladeCompilation/SupportMorphAwareBladeCompilation.php:327-347 | Text without `@` matches none of the patterns. |
| Classifier.LoopHeads | src/Features/SupportMorphAwareBladeCompilation/SupportMorphAwareBladeCompilation.php:297-310 | `@foreach`, `@forelse` and `@while`, followed by anything that is not a letter, are loop heads. |
| Classifier.ForIsNoLoop | src/Features/SupportMorphAwareBladeCompilation/SupportMorphAwareBladeCompilation.php:297-310 | A `@for` head is not a loop head, so it gets no loop hooks. |
| Classifier.EndLoopHeads | src/Features/SupportMorphAwareBladeCompilation/SupportMorphAwareBladeCompilation.php:312-325 | `@endforeach` and `@endwhile` end loops; `@endforelse` and `@endfor` do not. |
| Classifier.InlineSpaceIsSpace | src/Features/SupportMorphAwareBladeCompilation/SupportMorphAwareBladeCompilation.php:339 | A `(` after same-line blanks is also a `(` after white space. |
| Classifier.EmptyConditionOpens | src/Features/SupportMorphAwareBladeCompilation/SupportMorphAwareBladeCompilation.php:335-339 | `@empty(...)`, with its `(` on the same line, is an opening directive. |
| Classifier.BareEmptyEndsForelse | src/Features/SupportMorphAwareBladeCompilation/SupportMorphAwareBladeCompilation.php:77 | With the fixed table, an `@empty` with no `(` after it (even across a line break) is the loop `@empty`. So is any longer name that starts with `@empty`, because the pattern has no end-of-name check. |
| Classifier.BareEmptyNoOpening | src/Features/SupportMorphAwareBladeCompilation/SupportMorphAwareBladeCompilation.php:333-339 | A bare `@empty` does not match the opening pattern: the `@empty` alternative demands a `(` on the same line. |
| Classifier.BareEmptyNoClosing | src/Features/SupportMorphAwareBladeCompilation/SupportMorphAwareBladeCompilation.php:327-347 | A head starting with `@empty` matches no closing directive. |
| Classifier.HeadOpens | src/Features/SupportMorphAwareBladeCompilation/SupportMorphAwareBladeCompilation.php:327-347 | Used for the test at line 126. For a single head (its only `@` is the first character), the opening pattern matches exactly when the head begins with a whole opening name, not followed by a letter. For an `@empty` name a `(` must follow on the same line. |
| Classifier.HeadCloses | src/Features/SupportMorphAwareBladeCompilation/SupportMorphAwareBladeCompilation.php:327-347 | Used for the test at line 128. For a single head, the closing branch is taken exactly when the opening one is not and the head begins with a whole closing name, not followed by a letter. |
| Classifier.IfPrefixUnrelated | src/Features/SupportMorphAwareBladeCompilation/SupportMorphAwareBladeCompilation.php:327-347 | With the fixed directives, `@if` followed by a letter (`@iffy`, `@ifcustom(...)`) matches no pattern, so it gets no markers. |
| Classifier.IfIsNoLoop | src/Features/SupportMorphAwareBladeCompilation/SupportMorphAwareBladeCompilation.php:297-325 | `@if` is not a loop head and `@endif` ends no loop, whatever follows them. |
| Marking.OpeningMarkers | src/Features/SupportMorphAwareBladeCompilation/SupportMorphAwareBladeCompilation.php:150-158 | The block marker goes before the head exactly when conditional markers are on. `openLoop` goes before and `startLoop` after exactly for a loop. With nothing before, nothing goes after. |
| Marking.ClosingMarkers | src/Features/SupportMorphAwareBladeCompilation/SupportMorphAwareBladeCompilation.php:207-215 | The end-block marker goes after exactly when conditional markers are on. `endLoop` goes before and `closeLoop` after exactly for the end of a loop. With something before, something goes after. |
| Marking.LoopEmptyMarkers | src/Features/SupportMorphAwareBladeCompilation/SupportMorphAwareBladeCompilation.php:268-272 | The loop `@empty` gets `endLoop` before and `closeLoop` after when loop markers are on, and nothing otherwise. |
| Marking.BlockMarkersPair | src/Features/SupportMorphAwareBladeCompilation/SupportMorphAwareBladeCompilation.php:150-158 | An opening and a closing directive with the same switches insert markers that nest: block with end-block, `openLoop`…`closeLoop` around `startLoop`…`endLoop`. |
| Marking.ForelseMarkersPair | src/Features/SupportMorphAwareBladeCompilation/SupportMorphAwareBladeCompilation.php:268-272 | `@forelse`, its `@empty` and its `@endforelse` insert markers that nest: the loop hooks close at the `@empty`, the block at `@endforelse`. |
| Marking.ForelseNeedsEmpty | src/Features/SupportMorphAwareBladeCompilation/SupportMorphAwareBladeCompilation.php:316-318 | Without its `@empty`, a `@forelse` loop's hooks are left open: `@endforelse` does not close them. |
| Rewrite.Guarded | src/Features/SupportMorphAwareBladeCompilation/SupportMorphAwareBladeCompilation.php:164-170 | A run of markers is wrapped in the PHP guard. It is empty exactly when there are no markers. |
| Rewrite.OpeningWrapping | src/Features/SupportMorphAwareBladeCompilation/SupportMorphAwareBladeCompilation.php:150-158 | For a found head: the block marker exactly when conditional markers are on; the loop hooks exactly when loop markers are on and the head is a loop head. |
| Rewrite.ClosingWrapping | src/Features/SupportMorphAwareBladeCompilation/SupportMorphAwareBladeCompilation.php:207-215 | For a found closing directive: the end-block marker exactly when conditional markers are on; the loop-end hooks exactly when loop markers are on and it ends a loop. |
| Rewrite.ReplaceAll | src/Features/SupportMorphAwareBladeCompilation/SupportMorphAwareBladeCompilation.php:188 | `preg_replace` (also at lines 244 and 294) left to right over the original text, resuming after each replacement. Replacing never shortens the text. |
| Rewrite.TagCloseAheadMeans | src/Features/SupportMorphAwareBladeCompilation/SupportMorphAwareBladeCompilation.php:186 | The tag guard (also at lines 242 and 292) `(?![^<]*(?<![?=-])>)` refuses a match exactly when a `>` lies ahead with no `<` before it, and that `>` does not end `?>`, `=>` or `->`. |
| Rewrite.ReplaceEmbeds | src/Features/SupportMorphAwareBladeCompilation/SupportMorphAwareBladeCompilation.php:188 | `preg_replace` with prefix + found + suffix only inserts text. The original survives in order, up to the letter case of the replaced occurrences. |
| Rewrite.ReplaceNothing | src/Features/SupportMorphAwareBladeCompilation/SupportMorphAwareBladeCompilation.php:188 | Where no position qualifies, the text comes back unchanged. |
| Rewrite.ReplaceGrows | src/Features/SupportMorphAwareBladeCompilation/SupportMorphAwareBladeCompilation.php:188 | With a non-empty wrapping, one qualifying position makes the text strictly longer. |
| Rewrite.ReplaceFirst | src/Features/SupportMorphAwareBladeCompilation/SupportMorphAwareBladeCompilation.php:179-188 | Up to the first qualifying position the text is kept as it is. The occurrence there is wrapped in prefix and suffix, and the search goes on right after it. |
| Rewrite.ReplaceChanges | src/Features/SupportMorphAwareBladeCompilation/SupportMorphAwareBladeCompilation.php:188 | With a non-empty wrapping, the text changes exactly when some position qualifies. |
| Rewrite.NotRewrapped | src/Features/SupportMorphAwareBladeCompilation/SupportMorphAwareBladeCompilation.php:179-186 | An occurrence already wrapped by its own prefix (or suffix) does not match again: the negative lookbehind (or lookahead) rejects it. |
| Rewrite.NeverQualifies | src/Features/SupportMorphAwareBladeCompilation/SupportMorphAwareBladeCompilation.php:186 | An occurrence followed by the end of an HTML tag does not qualify, whatever the rest of the pattern. |
| Rewrite.PrefixOpeningDirective | src/Features/SupportMorphAwareBladeCompilation/SupportMorphAwareBladeCompilation.php:138-189 | When there are no markers to add, the template is returned as is. This covers both switches off, and also loop markers alone on a head that is not a loop. When there are markers, no lookaround of the pattern is empty, and the template changes exactly when some occurrence of the head qualifies. The result keeps the whole template. |
| Rewrite.SuffixClosingDirective | src/Features/SupportMorphAwareBladeCompilation/SupportMorphAwareBladeCompilation.php:191-245 | The same facts for the right-trimmed closing directive: unchanged when there are no markers to add (also loop markers alone on a directive that does not end a loop), and otherwise the closing pattern: lookbehind only when there is a prefix, then `(?!\w)` and the lookahead. |
| Rewrite.SuffixLoopEmptyDirective | src/Features/SupportMorphAwareBladeCompilation/SupportMorphAwareBladeCompilation.php:252-295 | With loop markers off, the template is returned as is. Otherwise the pattern has both lookarounds, neither empty, and the template changes exactly when some trimmed `@empty` qualifies. The result keeps the template. |
| Rewrite.OpeningWrapsFirst | src/Features/SupportMorphAwareBladeCompilation/SupportMorphAwareBladeCompilation.php:176-188 | The first qualifying occurrence of an opening head comes out as prefix, head, suffix. Everything before it is unchanged. |
| Rewrite.ClosingWrapsFirst | src/Features/SupportMorphAwareBladeCompilation/SupportMorphAwareBladeCompilation.php:195-244 | The first qualifying occurrence of a trimmed closing directive comes out as prefix, directive, suffix. Everything before it is unchanged. |
| Rewrite.LoopEmptyWrapsFirst | src/Features/SupportMorphAwareBladeCompilation/SupportMorphAwareBladeCompilation.php:256-294 | With loop markers on, the first qualifying `@empty` comes out wrapped in `endLoop` and `closeLoop`. Everything before it is unchanged. |
| Rewrite.OpeningInsideTag | src/Features/SupportMorphAwareBladeCompilation/SupportMorphAwareBladeCompilation.php:186-188 | When every occurrence of the head lies inside an HTML tag, the opening rewriter leaves the template unchanged. |
| Rewrite.ClosingInsideTag | src/Features/SupportMorphAwareBladeCompilation/SupportMorphAwareBladeCompilation.php:242-244 | When every occurrence of the trimmed directive lies inside an HTML tag, the closing rewriter leaves the template unchanged. |
| Rewrite.LoopEmptyInsideTag | src/Features/SupportMorphAwareBladeCompilation/SupportMorphAwareBladeCompilation.php:292-294 | When every occurrence of the trimmed `@empty` lies inside an HTML tag, the loop-`@empty` rewriter leaves the template unchanged. |
| Rewrite.DirectiveMarkersPair | src/Features/SupportMorphAwareBladeCompilation/SupportMorphAwareBladeCompilation.php:150-215 | For any switches, an opening and a closing directive that agree on being a loop get nested markers. This holds for `@if`…`@endif` and `@for`…`@endfor` as well as `@foreach`…`@endforeach` and `@while`…`@endwhile`. |
| Rewrite.IfMarkersPair | src/Features/SupportMorphAwareBladeCompilation/SupportMorphAwareBladeCompilation.php:150-215 | An `@if` and an `@endif` get nested block markers and no loop hooks, for any switches. |
| Rewrite.ForelseDirectivesPair | src/Features/SupportMorphAwareBladeCompilation/SupportMorphAwareBladeCompilation.php:150-272 | For any switches, a `@forelse` head, its `@empty` and its `@endforelse` get nested markers. |
| Compiler.RewriteStep | src/Features/SupportMorphAwareBladeCompilation/SupportMorphAwareBladeCompilation.php:126-132 | The rewriter for a classified head keeps the template. A head that is none of the three, or both switches off, leaves it unchanged. |
| Compiler.ApplyRewrites | src/Features/SupportMorphAwareBladeCompilation/SupportMorphAwareBladeCompilation.php:88-133 | Rewrites applied one after another, each to the result of the last, never remove anything from the template. With both switches off they change nothing. |
| Extension.Appended | src/Features/SupportMorphAwareBladeCompilation/SupportMorphAwareBladeCompilation.php:105-109 | One round adds one `)`, at its end, and no other. When the text occurs in the template, text and addition fit in the template plus the one added `)`. |
| Extension.AppendedContinues | src/Features/SupportMorphAwareBladeCompilation/SupportMorphAwareBladeCompilation.php:105-109 | When the text occurs in the template and a `)` follows it there, the text plus what the round adds occurs in the template at the text's first occurrence: the round takes the template's own continuation, up to and including the next `)`. |
| Extension.Extend | src/Features/SupportMorphAwareBladeCompilation/SupportMorphAwareBladeCompilation.php:97-122 | The intended loop: it stops once the head has no expression, the text does not end with `)`, the parentheses pair up, or the text no longer occurs in the template. The text only grows and starts with the match. The matches it skips lie inside the text. |
| Extension.ExtendExpression | src/Features/SupportMorphAwareBladeCompilation/SupportMorphAwareBladeCompilation.php:97-122 | The loop's result is exactly what `Extend` gives for the match, run against the current template. |
| Extension.Round | src/Features/SupportMorphAwareBladeCompilation/SupportMorphAwareBladeCompilation.php:105-121 | One round keeps the text as a prefix and only advances the index of the last swallowed match, which stays a valid index. |
| Extension.AsWrittenAfter | src/Features/SupportMorphAwareBladeCompilation/SupportMorphAwareBladeCompilation.php:100-122 | The loop as written, after a given number of rounds: the break is never taken, so every round runs in full. The text still starts with the match, and the swallowed index stays valid. |
| Extension.NeverPairsUp | src/Features/SupportMorphAwareBladeCompilation/SupportMorphAwareBladeCompilation.php:100-122 | Suppose the template is quote-free, has more `(` than `)`, and its only `)` is its last character. Suppose also that after one round the text is quote-free, ends with `)`, has more `(` than `)` and is longer than the template. Then the loop's guard still holds after every later round: each round appends the whole template. |
| Extension.StrayHeadIsTheMatch | src/Features/SupportMorphAwareBladeCompilation/SupportMorphAwareBladeCompilation.php:80-84 | In the template `@if(((a)` the head pattern matches once, at the start: the name `if` and the expression `((a`, cut at the first `)`. |
| Extension.AsWrittenNeverStops | src/Features/SupportMorphAwareBladeCompilation/SupportMorphAwareBladeCompilation.php:105-106 | On the template `@if(((a)` the loop's guard holds after any number of rounds: the parentheses never pair up and the break never fires, so the loop as written never ends. |
| Extension.IntendedStops | src/Features/SupportMorphAwareBladeCompilation/SupportMorphAwareBladeCompilation.php:105-106 | On the same template the intended loop stops after one round, with the text `@if(((a))`. |
| Extension.NestedHeadIsTheMatch | src/Features/SupportMorphAwareBladeCompilation/SupportMorphAwareBladeCompilation.php:80-84 | In the template `@if(f(1))` the only match is the head at 0, and its lazy group stops at the call's `)`: text `@if(f(1)`, expression `f(1`. |
| Extension.NestedRepaired | src/Features/SupportMorphAwareBladeCompilation/SupportMorphAwareBladeCompilation.php:97-122 | On `@if(f(1))`, the extension repairs the cut: it adds the template's `)`, ends with the whole condition `@if(f(1))`, and swallows no other match. |
| Compiler.StepAt | src/Features/SupportMorphAwareBladeCompilation/SupportMorphAwareBladeCompilation.php:89-122 | The step for match `i` starts at `i` and with that match's text. It is extended only when the match has an expression. The matches it swallows lie inside its text, and it is classified on that text. |
| Compiler.Drive | src/Features/SupportMorphAwareBladeCompilation/SupportMorphAwareBladeCompilation.php:88-133 | The loop from match `i` on: one step per handled match, extended and classified against the template rewritten by the steps before it. The loop goes on after the last match a step swallowed. |
| Compiler.DriveSteps | src/Features/SupportMorphAwareBladeCompilation/SupportMorphAwareBladeCompilation.php:88-133 | The loop's steps start at the first match, each starts right after the last match of the one before, the last ends at the last match, and each was handed on its own match. |
| Compiler.OwnerOf | src/Features/SupportMorphAwareBladeCompilation/SupportMorphAwareBladeCompilation.php:111-117 | Every match belongs to exactly one step: it is that step's own match or lies inside its extended text. |
| Compiler.StepsAscend | src/Features/SupportMorphAwareBladeCompilation/SupportMorphAwareBladeCompilation.php:88-133 | The steps' ranges of matches follow one another without overlap. |
| Compiler.HandleMatches | src/Features/SupportMorphAwareBladeCompilation/SupportMorphAwareBladeCompilation.php:88-133 | The loop over the matches makes exactly the steps `Drive` describes, and the template is their rewrites, applied in order. |
| Compiler.CompileDirectives | src/Features/SupportMorphAwareBladeCompilation/SupportMorphAwareBladeCompilation.php:69-136 | The matches are the head pattern's, in order and covering every head. The steps are `Drive`'s from the first match, and the result is their rewrites in order. The template is kept (only insertions), it is unchanged with both switches off, and it is unchanged when it has no directive head. |
| Compiler.Precompile | src/Features/SupportMorphAwareBladeCompilation/SupportMorphAwareBladeCompilation.php:51-61 | The table holds the fixed directives first, maps every registered condition `n` from `@n` to `@endn`, and holds no other key. The result is the template rewritten by the steps of `Drive` on that table. It keeps the template, and is unchanged with both switches off. |

## Left out

- `provide()` and its `flush-state` listener are not modelled. They read the
  `livewire.inject_morph_markers` and `livewire.smart_wire_keys` settings and
  decide whether to register the precompiler at all. The two switches are
  parameters instead.
- `Blade::precompiler` and reading the Blade compiler's private `conditions`
  are not modelled. The registered condition names are an input to
  `Precompile`.
- `token_get_all` is approximated in `Balance.Lex`:
  - a quoted string is one token, with a backslash escaping the next character;
  - every other character stands for itself, including the backtick, although
    PHP also reads a backtick (shell) string as one token;
  - Not modelled: comments, heredoc/nowdoc, string interpolation, `?>` ending
    PHP mode, and multi-character tokens that contain a parenthesis (casts such
    as `(int)`).
- Balance.HasEvenNumberOfParentheses: is exact only with respect to the
  tokeniser approximation above.
- Regular expressions are not modelled as a general engine. Each pattern is
  written out as a predicate. Directive and condition names are treated as
  literal text, although the source pastes them unescaped into a pattern. A
  name with regex metacharacters, or with white space (which the `x` flag
  ignores), is therefore not modelled.
- The longest-first ordering of the directive alternatives is left out. It
  cannot change whether `preg_match` finds a match.
- `preg_replace` failures (backtracking and recursion limits, returning `null`)
  are not modelled.
- The PHP guard's run-time behaviour, and what the markers do in the browser,
  are not modelled. The markers are fixed text.
- Compiler.CompileDirectives: does not state that a second pass leaves the
  template unchanged. That does not hold in general, because of the tag guard
  `(?![^<]*(?<![?=-])>)`. In `@if($a) @if($b > 1)`, the first `@if` is refused
  on the first pass, because the `>` of the second expression lies ahead with
  no `<` before it. The second `@if`'s markers then insert a `<`, so a second
  pass would wrap the first `@if`. Only the local fact is proved
  (`Rewrite.NotRewrapped`): an occurrence already wrapped is not wrapped again.
- Locator.MatchAll: is a scanner for the one head pattern, not a general
  `preg_match_all`. It reports heads with their groups, not PHP's group arrays.
- PHP's `unset($matches[0][$i + 1])` is modelled by skipping that match. The
  source never reads a removed entry again.
- Compiler.HandleMatches and Extension.ExtendExpression: follow the loop as
  it was evidently meant to run, stopping once the text no longer occurs in
  the template. The loop as written is `Extension.AsWrittenAfter`, the state
  after a given number of rounds, because it need not end (see Findings).
- Compiler.Drive, Compiler.StepAt, Compiler.CompileDirectives and
  Compiler.Precompile: inherit that intended loop through `Extension.Extend`.
  Where the two loops differ, so do the extended texts and the matches
  skipped, even when the loop as written does end. For example, on
  `@y) @if(((b) @x @y` both loops first append ` @x @y)` and swallow `@x`.
  The loop as written then appends `@y)` from the start of the template,
  swallows the last `@y` and stops. The intended loop stops before that
  round, and the last `@y` gets its own step.

## Findings

| source | as written | input that shows it | evidently intended | confidence | as-written member | corrected member |
|---|---|---|---|---|---|---|
| src/Features/SupportMorphAwareBladeCompilation/SupportMorphAwareBladeCompilation.php:105 | The break compares `str($template)->after($match[0])`, a `Stringable` object, with the string `$template` using `===`. That is never true, so the loop only ends once the parentheses pair up. | The template `@if(((a)`: after the first round the text is `@if(((a))`, which no longer occurs, so each further round appends the whole template and adds two more `(` than `)`. The loop never ends. | Leave the loop once the text no longer occurs in the template, i.e. compare the string value of `after`. | high, by proof; not executed | Extension.AsWrittenNeverStops | Extension.IntendedStops |

=== FILE: balance.dfy ===
/** The parenthesis check run on a directive match (`hasEvenNumberOfParentheses`):
    the match is tokenised as PHP code, and it is accepted when its last token
    is a closing parenthesis and it has as many opening as closing parenthesis
    tokens. A parenthesis inside a quoted string is part of the string token
    and does not count. */
module Balance {

  /** What the check looks at in a PHP token: a single-character `(` or `)`
      token, or anything else. */
  datatype Token = Open | Close | Other

  predicate IsQuote(c: char) {
    c == '\'' || c == '"'
  }

  /** The token a single code character forms. */
  function CharToken(c: char): Token {
    if c == '(' then Open else if c == ')' then Close else Other
  }

  /** Where the string literal whose body starts at `i` ends: just after the
      closing quote `q`, with a backslash escaping the character after it; an
      unterminated literal runs to the end of the text. */
  function StringEnd(s: string, q: char, i: nat): (r: nat)
    requires i <= |s|
    ensures i <= r <= |s|
    ensures r < |s| ==> r > i
    decreases |s| - i
  {
    if i >= |s| then |s|
    else if s[i] == q then i + 1
    else if s[i] == '\\' then (if i + 1 < |s| then StringEnd(s, q, i + 2) else |s|)
    else StringEnd(s, q, i + 1)
  }

  /** The tokens of PHP code, as far as parentheses are concerned: a quoted
      string literal is one token whatever it holds, and every other
      character stands for itself. */
  function Lex(s: string): (r: seq<Token>)
    ensures |r| <= |s|
    ensures s != [] ==> |r| > 0
    decreases |s|
  {
    if s == [] then []
    else if IsQuote(s[0]) then [Other] + Lex(s[StringEnd(s, s[0], 1)..])
    else [CharToken(s[0])] + Lex(s[1..])
  }

  /** `token_get_all('<?php ' . expr)`: the open tag is one token of its own. */
  function Tokens(expr: string): (r: seq<Token>)
    ensures |r| > 0 && r[0] == Other
  {
    [Other] + Lex(expr)
  }

  /** The accepted expressions: the last token closes a parenthesis and the
      opening and closing parenthesis tokens are equally many. */
  ghost predicate Balanced(expr: string) {
    var tokens := Tokens(expr);
    tokens[|tokens| - 1] == Close && multiset(tokens)[Open] == multiset(tokens)[Close]
  }

  method HasEvenNumberOfParentheses(expression: string) returns (r: bool)
    ensures r == Balanced(expression)
  {
    var tokens := Tokens(expression);
    if tokens[|tokens| - 1] != Close {
      return false;
    }
    var opening, closing := 0, 0;
    for i := 0 to |tokens|
      invariant opening == multiset(tokens[..i])[Open]
      invariant closing == multiset(tokens[..i])[Close]
    {
      assert tokens[..i + 1] == tokens[..i] + [tokens[i]];
      if tokens[i] == Close {
        closing := closing + 1;
      } else if tokens[i] == Open {
        opening := opening + 1;
      }
    }
    assert tokens[..|tokens|] == tokens;
    r := opening == closing;
  }

  /** Without quotes, each character is its own token. */
  lemma {:induction false} LexQuoteFree(s: string)
    requires forall k :: 0 <= k < |s| ==> !IsQuote(s[k])
    ensures Lex(s) == seq(|s|, k requires 0 <= k < |s| => CharToken(s[k]))
    decreases |s|
  {
    if s != [] {
      LexQuoteFree(s[1..]);
    }
  }

  /** Counting tokens of quote-free text counts its characters. */
  lemma {:induction false} CountQuoteFree(s: string)
    requires forall k :: 0 <= k < |s| ==> !IsQuote(s[k])
    ensures multiset(Lex(s))[Open] == multiset(s)['(']
    ensures multiset(Lex(s))[Close] == multiset(s)[')']
    decreases |s|
  {
    if s != [] {
      CountQuoteFree(s[1..]);
      assert Lex(s) == [CharToken(s[0])] + Lex(s[1..]);
      assert multiset(Lex(s)) == multiset{CharToken(s[0])} + multiset(Lex(s[1..]));
      assert multiset(s) == multiset{s[0]} + multiset(s[1..]) by {
        assert s == [s[0]] + s[1..];
      }
    }
  }

  /** For an expression without quotes, the check is a plain character count:
      it ends with `)` and has as many `(` as `)`. */
  lemma BalancedQuoteFree(expr: string)
    requires forall k :: 0 <= k < |expr| ==> !IsQuote(expr[k])
    ensures Balanced(expr) <==>
              |expr| > 0 && expr[|expr| - 1] == ')' && multiset(expr)['('] == multiset(expr)[')']
  {
    LexQuoteFree(expr);
    CountQuoteFree(expr);
  }

  /** A string literal hides what it holds: a quoted body without quotes or
      backslashes adds one token, whatever parentheses it contains. */
  lemma QuotedIsOneToken(q: char, body: string, rest: string)
    requires IsQuote(q)
    requires forall k :: 0 <= k < |body| ==> body[k] != q && body[k] != '\\'
    ensures Lex([q] + body + [q] + rest) == [Other] + Lex(rest)
  {
    var s := [q] + body + [q] + rest;
    StringEndSkips(s, q, body, 1);
    assert s[|body| + 2..] == rest;
  }

  lemma {:induction false} StringEndSkips(s: string, q: char, body: string, i: nat)
    requires 1 <= i <= |body| + 1 && |body| + 2 <= |s| && s[..|body| + 2] == [q] + body + [q]
    requires forall k :: 0 <= k < |body| ==> body[k] != q && body[k] != '\\'
    ensures StringEnd(s, q, i) == |body| + 2
    decreases |body| + 1 - i
  {
    assert s[i] == ([q] + body + [q])[i];
    if i <= |body| {
      assert s[i] == body[i - 1];
      StringEndSkips(s, q, body, i + 1);
    }
  }

  /** A call wrapped in a directive's parentheses is accepted exactly when its
      own parentheses pair up: the lazy pattern stopping at the call's first
      `)` is rejected, and the loop that extends the match to the next `)` stops
      once they pair up. */
  lemma Wrapped(head: string, inner: string)
    requires forall k :: 0 <= k < |head| ==> !IsQuote(head[k]) && head[k] != '(' && head[k] != ')'
    requires forall k :: 0 <= k < |inner| ==> !IsQuote(inner[k])
    ensures Balanced(head + "(" + inner + ")") <==> multiset(inner)['('] == multiset(inner)[')']
  {
    var e := head + "(" + inner + ")";
    assert multiset(e) == multiset(head) + multiset{'('} + multiset(inner) + multiset{')'};
    assert multiset(head)['('] == 0 && multiset(head)[')'] == 0;
    BalancedQuoteFree(e);
  }

  /** Quote-free text lexes on its own, whatever follows it. */
  lemma {:induction false} LexAppendQuoteFree(a: string, b: string)
    requires forall k :: 0 <= k < |a| ==> !IsQuote(a[k])
    ensures Lex(a + b) == Lex(a) + Lex(b)
    decreases |a|
  {
    if a != [] {
      assert (a + b)[1..] == a[1..] + b;
      LexAppendQuoteFree(a[1..], b);
    } else {
      assert a + b == b;
    }
  }
}

=== FILE: classify.dfy ===
/** Deciding what a directive match is: an opening block directive, a closing
    one, the `@empty` that ends a `@forelse` loop, or none of these; and
    whether it opens or closes a loop that gets loop markers. Every pattern
    here is searched for anywhere in the match, ignoring letter case. */
module Classifier {
  import opened Text
  import opened Directives

  /** `name(?![a-zA-Z])` at `p`: the whole name, not the start of a longer one. */
  predicate WholeNameAt(text: string, p: nat, name: string) {
    CIAt(text, p, name) && (p + |name| == |text| || !IsLetter(text[p + |name|]))
  }

  /** `[^\S\r\n]*\(` at `i`: a `(` after blanks that do not end a line. */
  predicate ParenAfterInlineSpace(text: string, i: nat)
    decreases |text| - i
  {
    i < |text| && (text[i] == '(' || (IsInlineSpace(text[i]) && ParenAfterInlineSpace(text, i + 1)))
  }

  /** `\s*\(` at `i`: a `(` after any white space. */
  predicate ParenAfterSpace(text: string, i: nat)
    decreases |text| - i
  {
    i < |text| && (text[i] == '(' || (IsSpace(text[i]) && ParenAfterSpace(text, i + 1)))
  }

  /** A name that starts, exactly, with `@empty` only counts with a `(` after it,
      so that the `@empty` of a `@forelse` loop is not taken for the
      `@empty(...)` condition. */
  predicate NeedsParen(name: string) {
    |name| >= 6 && name[..6] == "@empty"
  }

  /** One alternative of the directive-list pattern, matched at `p`. */
  predicate AlternativeAt(text: string, p: nat, name: string) {
    WholeNameAt(text, p, name) && (NeedsParen(name) ==> ParenAfterInlineSpace(text, p + |name|))
  }

  /** The directive-list pattern finds one of `names` somewhere in `text`. The
      longest-first order of the alternatives does not change whether there is
      a match, so it is not modelled. */
  predicate MatchesDirective(text: string, names: seq<string>) {
    exists p, k :: 0 <= p <= |text| && 0 <= k < |names| && AlternativeAt(text, p, names[k])
  }

  /** `@empty(?!\s*\()`: an `@empty` with no `(` after it. */
  predicate IsLoopEmpty(text: string) {
    exists p :: 0 <= p <= |text| && CIAt(text, p, "@empty") && !ParenAfterSpace(text, p + 6)
  }

  /** `@(foreach|forelse|while)(?![a-zA-Z])`. A `@for` loop is left out on
      purpose, since it has no `$loop` variable. */
  predicate IsLoop(text: string) {
    exists p :: 0 <= p <= |text| &&
      (WholeNameAt(text, p, "@foreach") || WholeNameAt(text, p, "@forelse") || WholeNameAt(text, p, "@while"))
  }

  /** `@(endforeach|endwhile)(?![a-zA-Z])`. A `@forelse` loop is closed by its
      `@empty`, not by `@endforelse`, and `@for` has no loop markers. */
  predicate IsEndLoop(text: string) {
    exists p :: 0 <= p <= |text| &&
      (WholeNameAt(text, p, "@endforeach") || WholeNameAt(text, p, "@endwhile"))
  }

  datatype Kind = Opener | Closer | LoopEmpty | Unrelated

  /** The branch `compileDirectives` takes for a match: the opening pattern is
      tried first, then the closing one, then the loop `@empty`. */
  function Classify(text: string, directives: Table): (k: Kind)
    ensures k == Opener <==> MatchesDirective(text, Openings(directives))
    ensures k == Closer <==> !MatchesDirective(text, Openings(directives)) && MatchesDirective(text, Closings(directives))
    ensures k == LoopEmpty <==>
              !MatchesDirective(text, Openings(directives)) && !MatchesDirective(text, Closings(directives)) && IsLoopEmpty(text)
  {
    if MatchesDirective(text, Openings(directives)) then Opener
    else if MatchesDirective(text, Closings(directives)) then Closer
    else if IsLoopEmpty(text) then LoopEmpty
    else Unrelated
  }

  /** Every pattern here starts with an at sign, so text without one matches
      none of them. */
  lemma NoAtUnrelated(text: string, directives: Table)
    requires '@' !in text
    requires forall i :: 0 <= i < |directives| ==> IsPair(directives[i])
    ensures Classify(text, directives) == Unrelated
  {
    forall p, name | 0 <= p < |text| && |name| > 0 && name[0] == '@' ensures !CIAt(text, p, name) {
      assert text[p] in text;
    }
    var o, c := Openings(directives), Closings(directives);
    forall p, k | 0 <= p <= |text| && 0 <= k < |o| ensures !AlternativeAt(text, p, o[k]) {
      assert IsPair(directives[k]);
    }
    forall p, k | 0 <= p <= |text| && 0 <= k < |c| ensures !AlternativeAt(text, p, c[k]) {
      assert IsPair(directives[k]);
      assert c[k][0] == '@';
    }
  }

  /** An at sign is only ever matched by an at sign, so in text whose only at
      sign is its first character, a pattern beginning with `@` can only match
      at the start. */
  lemma AtOnlyAtStart(text: string, p: nat, name: string)
    requires |name| > 0 && name[0] == '@' && |text| > 0 && '@' !in text[1..]
    requires CIAt(text, p, name)
    ensures p == 0
  {
    assert Fold(text[p..p + |name|][0]) == Fold(name[0]);
  }

  /** A loop head is recognised by its own name, whatever follows it that is
      not a letter. */
  lemma LoopHeads(name: string, e: string)
    requires name in ["@foreach", "@forelse", "@while"]
    requires e == [] || !IsLetter(e[0])
    ensures IsLoop(name + e)
  {
    var text := name + e;
    assert text[..|name|] == name;
    assert WholeNameAt(text, 0, name);
  }

  /** A `@for` head gets no loop markers: it is not `@foreach` or `@forelse`
      when the next character is not a letter. */
  lemma ForIsNoLoop(e: string)
    requires '@' !in e && (e == [] || !IsLetter(e[0]))
    ensures !IsLoop("@for" + e)
  {
    var text := "@for" + e;
    assert text[1..] == "for" + e;
    forall p | 0 <= p <= |text| ensures !WholeNameAt(text, p, "@foreach") && !WholeNameAt(text, p, "@forelse")
        && !WholeNameAt(text, p, "@while") {
      NoWholeNameAt(text, p, "@foreach", 4);
      NoWholeNameAt(text, p, "@forelse", 4);
      NoWholeNameAt(text, p, "@while", 1);
    }
  }

  /** Loop-closing heads: `@endforeach` and `@endwhile` close loops with loop
      markers; `@endforelse` and `@endfor` do not. */
  lemma EndLoopHeads(e: string)
    requires '@' !in e && (e == [] || !IsLetter(e[0]))
    ensures IsEndLoop("@endforeach" + e) && IsEndLoop("@endwhile" + e)
    ensures !IsEndLoop("@endforelse" + e) && !IsEndLoop("@endfor" + e)
  {
    var t1, t2 := "@endforeach" + e, "@endwhile" + e;
    assert t1[..11] == "@endforeach" && WholeNameAt(t1, 0, "@endforeach");
    assert t2[..9] == "@endwhile" && WholeNameAt(t2, 0, "@endwhile");
    EndForNoLoop(e);
  }

  lemma EndForNoLoop(e: string)
    requires '@' !in e && (e == [] || !IsLetter(e[0]))
    ensures !IsEndLoop("@endforelse" + e) && !IsEndLoop("@endfor" + e)
  {
    var t3, t4 := "@endforelse" + e, "@endfor" + e;
    assert t3[1..] == "endforelse" + e && t4[1..] == "endfor" + e;
    forall p | 0 <= p <= |t3| ensures !WholeNameAt(t3, p, "@endforeach") && !WholeNameAt(t3, p, "@endwhile") {
      NoWholeNameAt(t3, p, "@endforeach", 9);
      NoWholeNameAt(t3, p, "@endwhile", 4);
    }
    forall p | 0 <= p <= |t4| ensures !WholeNameAt(t4, p, "@endforeach") && !WholeNameAt(t4, p, "@endwhile") {
      NoWholeNameAt(t4, p, "@endforeach", 7);
      NoWholeNameAt(t4, p, "@endwhile", 4);
    }
  }

  /** A name beginning with `@` is not found in text whose only `@` is its first
      character when the two differ, caselessly, at some index `d`. */
  lemma NoWholeNameAt(text: string, p: nat, name: string, d: nat)
    requires |name| > 0 && name[0] == '@' && |text| > 0 && '@' !in text[1..]
    requires d < |name|
    requires d < |text| ==> Fold(text[d]) != Fold(name[d])
    ensures !WholeNameAt(text, p, name)
  {
    NoNameAt(text, p, name, d);
  }

  lemma NoNameAt(text: string, p: nat, name: string, d: nat)
    requires |name| > 0 && name[0] == '@' && |text| > 0 && '@' !in text[1..]
    requires d < |name|
    requires d < |text| ==> Fold(text[d]) != Fold(name[d])
    ensures !CIAt(text, p, name)
  {
    if CIAt(text, p, name) {
      AtOnlyAtStart(text, p, name);
    }
  }

  /** A single directive head, as `compileDirectives` sees it: an at sign at
      the start and nowhere else. */
  predicate SingleHead(text: string) {
    |text| > 0 && text[0] == '@' && '@' !in text[1..]
  }

  /** A single head matches the opening pattern exactly when it begins with a
      whole opening name, and an `@empty` name only with a `(` on its line. */
  lemma HeadOpens(text: string, directives: Table)
    requires SingleHead(text)
    requires forall i :: 0 <= i < |directives| ==> IsPair(directives[i])
    ensures Classify(text, directives) == Opener <==>
              exists k :: 0 <= k < |directives| && WholeNameAt(text, 0, directives[k].0) &&
                (NeedsParen(directives[k].0) ==> ParenAfterInlineSpace(text, |directives[k].0|))
  {
    var o := Openings(directives);
    if MatchesDirective(text, o) {
      var p, k :| 0 <= p <= |text| && 0 <= k < |o| && AlternativeAt(text, p, o[k]);
      assert IsPair(directives[k]);
      AtOnlyAtStart(text, p, o[k]);
      assert AlternativeAt(text, 0, directives[k].0);
    }
    if exists k :: 0 <= k < |directives| && AlternativeAt(text, 0, directives[k].0) {
      var k :| 0 <= k < |directives| && AlternativeAt(text, 0, directives[k].0);
      assert AlternativeAt(text, 0, o[k]);
    }
  }

  /** A single head that opens nothing matches the closing pattern exactly when
      it begins with a whole closing name. */
  lemma HeadCloses(text: string, directives: Table)
    requires SingleHead(text)
    requires forall i :: 0 <= i < |directives| ==> IsPair(directives[i])
    ensures Classify(text, directives) == Closer <==>
              Classify(text, directives) != Opener &&
              exists k :: 0 <= k < |directives| && WholeNameAt(text, 0, directives[k].1)
  {
    var c := Closings(directives);
    if MatchesDirective(text, c) {
      var p, k :| 0 <= p <= |text| && 0 <= k < |c| && AlternativeAt(text, p, c[k]);
      assert IsPair(directives[k]);
      assert c[k][0] == '@';
      AtOnlyAtStart(text, p, c[k]);
      assert WholeNameAt(text, 0, directives[k].1);
    }
    if exists k :: 0 <= k < |directives| && WholeNameAt(text, 0, directives[k].1) {
      var k :| 0 <= k < |directives| && WholeNameAt(text, 0, directives[k].1);
      assert IsPair(directives[k]);
      assert !NeedsParen(c[k]) by {
        assert c[k][2] == 'n';
        if |c[k]| >= 6 {
          assert c[k][..6][2] == 'n';
        }
      }
      assert AlternativeAt(text, 0, c[k]);
    }
  }

  /** A longer name that begins with `if` is not an `@if`: with the fixed
      directives, `@iffy` or `@ifcustom(...)` is left alone. */
  lemma IfPrefixUnrelated(e: string)
    requires '@' !in e && |e| > 0 && IsLetter(e[0])
    ensures Classify("@if" + e, Base) == Unrelated
  {
    var text := "@if" + e;
    assert text[1..] == "if" + e;
    var o, c := Openings(Base), Closings(Base);
    forall p, k | 0 <= p <= |text| && 0 <= k < |o| ensures !AlternativeAt(text, p, o[k]) {
      if k == 0 {
        if WholeNameAt(text, p, o[k]) {
          AtOnlyAtStart(text, p, o[k]);
        }
      } else {
        NoWholeNameAt(text, p, o[k], if k == 3 then 2 else 1);
      }
    }
    forall p, k | 0 <= p <= |text| && 0 <= k < |c| ensures !AlternativeAt(text, p, c[k]) {
      NoWholeNameAt(text, p, c[k], 1);
    }
    forall p | 0 <= p <= |text| ensures !CIAt(text, p, "@empty") {
      NoNameAt(text, p, "@empty", 1);
    }
  }

  /** `@if` opens no loop and `@endif` closes none, so a conditional block gets
      block markers only. */
  lemma IfIsNoLoop(e: string, f: string)
    requires '@' !in e && '@' !in f
    ensures !IsLoop("@if" + e) && !IsEndLoop("@endif" + f)
  {
    var t1, t2 := "@if" + e, "@endif" + f;
    assert t1[1..] == "if" + e && t2[1..] == "endif" + f;
    forall p | 0 <= p <= |t1| ensures !WholeNameAt(t1, p, "@foreach") && !WholeNameAt(t1, p, "@forelse")
        && !WholeNameAt(t1, p, "@while") {
      NoWholeNameAt(t1, p, "@foreach", 1);
      NoWholeNameAt(t1, p, "@forelse", 1);
      NoWholeNameAt(t1, p, "@while", 1);
    }
    forall p | 0 <= p <= |t2| ensures !WholeNameAt(t2, p, "@endforeach") && !WholeNameAt(t2, p, "@endwhile") {
      NoWholeNameAt(t2, p, "@endforeach", 4);
      NoWholeNameAt(t2, p, "@endwhile", 4);
    }
  }

  lemma {:induction false} InlineSpaceIsSpace(text: string, i: nat)
    requires ParenAfterInlineSpace(text, i)
    ensures ParenAfterSpace(text, i)
    decreases |text| - i
  {
    if text[i] != '(' {
      InlineSpaceIsSpace(text, i + 1);
    }
  }

  /** `@empty(...)` with its parenthesis on the same line is the opening
      `@empty` condition. */
  lemma EmptyConditionOpens(e: string, directives: Table)
    requires HasKey(directives, "@empty") && ParenAfterInlineSpace("@empty" + e, 6)
    ensures Classify("@empty" + e, directives) == Opener
  {
    var text := "@empty" + e;
    var k :| 0 <= k < |directives| && directives[k].0 == "@empty";
    assert text[..6] == "@empty";
    assert AlternativeAt(text, 0, Openings(directives)[k]);
  }

  /** With the fixed directives, an `@empty` head with no `(` after it (even
      across a line break) is the `@empty` that ends a `@forelse` loop. So is
      any longer name that begins with `@empty`, since the loop pattern does not
      look for the end of the name. */
  lemma BareEmptyEndsForelse(e: string)
    requires '@' !in e && !ParenAfterSpace("@empty" + e, 6)
    ensures Classify("@empty" + e, Base) == LoopEmpty
  {
    var text := "@empty" + e;
    assert text[0..6] == "@empty";
    assert CIAt(text, 0, "@empty");
    BareEmptyNoOpening(e);
    BareEmptyNoClosing(e);
  }

  lemma BareEmptyNoOpening(e: string)
    requires '@' !in e && !ParenAfterSpace("@empty" + e, 6)
    ensures !MatchesDirective("@empty" + e, Openings(Base))
  {
    var text := "@empty" + e;
    assert text[..6] == "@empty" && text[1..] == "empty" + e;
    if ParenAfterInlineSpace(text, 6) {
      InlineSpaceIsSpace(text, 6);
    }
    var o := Openings(Base);
    forall p, k | 0 <= p <= |text| && 0 <= k < |o| ensures !AlternativeAt(text, p, o[k]) {
      if k == 4 {
        assert o[k] == "@empty" && NeedsParen(o[k]);
        if WholeNameAt(text, p, o[k]) {
          AtOnlyAtStart(text, p, o[k]);
        }
      } else {
        NoWholeNameAt(text, p, o[k], if k == 2 then 2 else 1);
      }
    }
  }

  lemma BareEmptyNoClosing(e: string)
    requires '@' !in e
    ensures !MatchesDirective("@empty" + e, Closings(Base))
  {
    var text := "@empty" + e;
    assert text[..6] == "@empty" && text[1..] == "empty" + e;
    var c := Closings(Base);
    forall p, k | 0 <= p <= |text| && 0 <= k < |c| ensures !AlternativeAt(text, p, c[k]) {
      NoWholeNameAt(text, p, c[k], 2);
    }
  }
}

=== FILE: compile.dfy ===
/** The precompiler itself (`compileDirectives` and the closure registered
    with Blade): every directive head in the template is found, its
    parenthesised expression is extended until its parentheses pair up, and
    the head is classified and handed to the matching rewriter, which
    rewrites the whole template. */
module Compiler {
  import opened Text
  import opened Directives
  import opened Locator
  import opened Balance
  import opened Classifier
  import opened Rewrite
  import opened Extension

  /** One match as it was handed on: its index `at` among the matches, the
      index `last` of the last match its extended expression swallowed, what
      it was classified as, and its text after the extension. */
  datatype Step = Step(at: nat, last: nat, kind: Kind, found: string) {
    /** The index of the match the loop goes on with. */
    function Next(): nat { last + 1 }
  }

  predicate StartsWithAt(s: string) {
    |s| > 0 && s[0] == '@'
  }

  /** Text that starts with `@` keeps a character under `rtrim`. */
  lemma TrimKeepsAt(s: string)
    requires StartsWithAt(s)
    ensures RTrim(s) != []
  {
    assert !IsTrimmable(s[0]);
  }

  /** The rewriter the branch chain picks for a classified head; a head that
      is none of the three leaves the template alone. */
  function RewriteStep(step: Step, template: string, flags: Flags): (r: string)
    requires StartsWithAt(step.found)
    ensures step.kind == Unrelated || (!flags.conditional && !flags.loop) ==> r == template
    ensures Embeds(template, r)
  {
    TrimKeepsAt(step.found);
    match step.kind
    case Opener => PrefixOpeningDirective(step.found, template, flags)
    case Closer => SuffixClosingDirective(step.found, template, flags)
    case LoopEmpty => SuffixLoopEmptyDirective(step.found, template, flags)
    case Unrelated => EmbedsRefl(template); template
  }

  /** The template after the rewrites of `steps`, in order, each applied to
      the result of the ones before it. Nothing is ever removed, and with both
      switches off nothing changes. */
  function ApplyRewrites(template: string, steps: seq<Step>, flags: Flags): (r: string)
    requires forall k :: 0 <= k < |steps| ==> StartsWithAt(steps[k].found)
    ensures Embeds(template, r)
    ensures !flags.conditional && !flags.loop ==> r == template
    decreases |steps|
  {
    if steps == [] then EmbedsRefl(template); template
    else
      var next := RewriteStep(steps[0], template, flags);
      var r := ApplyRewrites(next, steps[1..], flags);
      EmbedsTransitive(template, next, r);
      r
  }

  lemma ApplyFirst(template: string, step: Step, rest: seq<Step>, flags: Flags)
    requires StartsWithAt(step.found) && forall k :: 0 <= k < |rest| ==> StartsWithAt(rest[k].found)
    ensures forall k :: 0 <= k < |[step] + rest| ==> StartsWithAt(([step] + rest)[k].found)
    ensures ApplyRewrites(template, [step] + rest, flags) == ApplyRewrites(RewriteStep(step, template, flags), rest, flags)
  {
    assert ([step] + rest)[1..] == rest;
  }

  /** Text that starts with a match's text starts with `@`. */
  lemma PrefixStartsWithAt(a: string, b: string)
    requires StartsWithAt(a) && a <= b
    ensures StartsWithAt(b)
  {
    assert b[0] == b[..|a|][0];
  }

  lemma HeadsStartWithAt(t: string, ms: seq<Head>)
    requires forall h :: h in ms ==> HeadAt(t, h.pos) == Some(h)
    ensures forall k :: 0 <= k < |ms| ==> StartsWithAt(ms[k].text)
  {
    forall k | 0 <= k < |ms| ensures StartsWithAt(ms[k].text) {
      HeadStartsWithAt(t, ms[k]);
    }
  }

  /** Every match starts with its at sign. */
  lemma HeadStartsWithAt(t: string, h: Head)
    requires HeadAt(t, h.pos) == Some(h)
    ensures StartsWithAt(h.text)
  {
    assert t[h.pos..h.pos + |h.text|][0] == t[h.pos];
  }

  /** A step handed on its own match: it starts with that match's text,
      its expression was extended only when the match has one, the matches
      it swallowed lie inside its text, and it was classified on that text. */
  predicate Handed(ms: seq<Head>, directives: Table, s: Step) {
    && s.at <= s.last < |ms|
    && ms[s.at].text <= s.found
    && (!HasExpression(ms[s.at]) ==> s.found == ms[s.at].text)
    && Swallowed(s.found, ms, s.at, s.last)
    && s.kind == Classify(s.found, directives)
  }

  /** The step `compileDirectives` makes for match `i` against the template
      as rewritten so far: the match is extended and classified. */
  ghost function StepAt(template: string, directives: Table, ms: seq<Head>, i: nat): (s: Step)
    requires i < |ms| && StartsWithAt(ms[i].text)
    ensures s.at == i && StartsWithAt(s.found) && Handed(ms, directives, s)
  {
    var e := Extend(template, ms, i, ms[i].text, i);
    PrefixStartsWithAt(ms[i].text, e.0);
    Step(i, e.1, Classify(e.0, directives), e.0)
  }

  /** The loop of `compileDirectives` from match `i` on, against the template
      as rewritten so far: each step is handed to its rewriter, and the loop
      goes on after the last match it swallowed. */
  ghost function Drive(template: string, directives: Table, flags: Flags, ms: seq<Head>, i: nat): (steps: seq<Step>)
    requires forall k :: 0 <= k < |ms| ==> StartsWithAt(ms[k].text)
    ensures forall k :: 0 <= k < |steps| ==> StartsWithAt(steps[k].found)
    decreases |ms| - i
  {
    if i >= |ms| then []
    else
      var step := StepAt(template, directives, ms, i);
      [step] + Drive(RewriteStep(step, template, flags), directives, flags, ms, step.Next())
  }

  /** One turn of the loop: the step for match `i`, then the loop from the
      match after its last one, against the rewritten template. */
  lemma DriveUnfold(template: string, directives: Table, flags: Flags, ms: seq<Head>, i: nat)
    requires forall k :: 0 <= k < |ms| ==> StartsWithAt(ms[k].text)
    requires i < |ms|
    ensures var step := StepAt(template, directives, ms, i);
      Drive(template, directives, flags, ms, i)
      == [step] + Drive(RewriteStep(step, template, flags), directives, flags, ms, step.Next())
  {
  }

  /** The steps start at `i`, each starts right after the one before it ends,
      and the last one ends with the last match. */
  predicate Chained(ms: seq<Head>, steps: seq<Step>, i: nat) {
    && (steps == [] <==> i >= |ms|)
    && (steps != [] ==> steps[0].at == i && steps[|steps| - 1].last == |ms| - 1)
    && (forall k :: 0 < k < |steps| ==> steps[k].at == steps[k - 1].Next())
  }

  /** The steps of the loop are chained, and each was handed on its own match. */
  lemma {:induction false} DriveSteps(template: string, directives: Table, flags: Flags, ms: seq<Head>, i: nat)
    requires forall k :: 0 <= k < |ms| ==> StartsWithAt(ms[k].text)
    ensures Chained(ms, Drive(template, directives, flags, ms, i), i)
    ensures forall k :: 0 <= k < |Drive(template, directives, flags, ms, i)| ==>
              Handed(ms, directives, Drive(template, directives, flags, ms, i)[k])
    decreases |ms| - i
  {
    if i < |ms| {
      var step := StepAt(template, directives, ms, i);
      var next := RewriteStep(step, template, flags);
      var rest := Drive(next, directives, flags, ms, step.Next());
      DriveUnfold(template, directives, flags, ms, i);
      DriveSteps(next, directives, flags, ms, step.Next());
      ChainedCons(ms, directives, step, rest, i);
    }
  }

  /** A step handed on match `i`, followed by steps chained from the match
      after its last one, are chained from `i`. */
  lemma ChainedCons(ms: seq<Head>, directives: Table, step: Step, rest: seq<Step>, i: nat)
    requires step.at == i && Handed(ms, directives, step)
    requires Chained(ms, rest, step.Next()) && forall k :: 0 <= k < |rest| ==> Handed(ms, directives, rest[k])
    ensures Chained(ms, [step] + rest, i) && forall k :: 0 <= k < |[step] + rest| ==> Handed(ms, directives, ([step] + rest)[k])
  {
    var steps := [step] + rest;
    forall k | 0 < k < |steps| ensures steps[k] == rest[k - 1] {
    }
  }

  /** Every match from `i` on belongs to exactly one step: the step whose
      range holds it, as its own match or inside its extended text. */
  lemma {:induction false} OwnerOf(ms: seq<Head>, directives: Table, steps: seq<Step>, i: nat, j: nat)
      returns (k: nat)
    requires Chained(ms, steps, i) && forall k :: 0 <= k < |steps| ==> Handed(ms, directives, steps[k])
    requires i <= j < |ms|
    ensures k < |steps| && steps[k].at <= j <= steps[k].last
    ensures j == steps[k].at || Contains(steps[k].found, ms[j].text)
    ensures forall l :: 0 <= l < |steps| && steps[l].at <= j <= steps[l].last ==> l == k
    decreases |steps|
  {
    var s := steps[0];
    StepsAscend(ms, directives, steps, i);
    if j <= s.last {
      k := 0;
      SwallowedContained(s.found, ms, s.at, s.last);
    } else {
      var rest := steps[1..];
      assert Chained(ms, rest, s.Next()) by {
        forall m | 0 < m < |rest| ensures rest[m].at == rest[m - 1].Next() {
          assert rest[m] == steps[m + 1] && rest[m - 1] == steps[m];
        }
      }
      var k' := OwnerOf(ms, directives, rest, s.Next(), j);
      k := k' + 1;
    }
  }

  /** The steps' ranges follow one another: a later step starts after an
      earlier one ends. */
  lemma StepsAscend(ms: seq<Head>, directives: Table, steps: seq<Step>, i: nat)
    requires Chained(ms, steps, i) && forall k :: 0 <= k < |steps| ==> Handed(ms, directives, steps[k])
    ensures forall k, l :: 0 <= k < l < |steps| ==> steps[k].last < steps[l].at
  {
    forall k, l | 0 <= k < l < |steps| ensures steps[k].last < steps[l].at {
      StepsAscendFrom(steps, k, l);
    }
  }

  lemma {:induction false} StepsAscendFrom(steps: seq<Step>, k: nat, l: nat)
    requires forall m :: 0 <= m < |steps| ==> steps[m].at <= steps[m].last
    requires forall m :: 0 < m < |steps| ==> steps[m].at == steps[m - 1].Next()
    requires k < l < |steps|
    ensures steps[k].last < steps[l].at
    decreases l - k
  {
    if k + 1 < l {
      StepsAscendFrom(steps, k + 1, l);
    }
  }

  /** `compileDirectives`: the matches are taken from the template as given,
      while each extension and each rewrite works on the template as
      rewritten so far. */
  method CompileDirectives(template: string, directives: Table, flags: Flags)
      returns (result: string, ms: seq<Head>, ghost steps: seq<Step>)
    // the matches are those of the head pattern in the template as given
    ensures forall h :: h in ms ==> HeadAt(template, h.pos) == Some(h)
    ensures forall k, l :: 0 <= k < l < |ms| ==> ms[k].pos + |ms[k].text| <= ms[l].pos
    ensures forall p :: 0 <= p < |template| && StartsHead(template, p) ==> Covered(ms, p)
    ensures forall k :: 0 <= k < |ms| ==> StartsWithAt(ms[k].text)
    // the matches are handed on in order, and the template is rewritten step by step
    ensures steps == Drive(template, directives, flags, ms, 0)
    ensures result == ApplyRewrites(template, steps, flags)
    // markers are only inserted, and only when a switch is on
    ensures Embeds(template, result)
    ensures !flags.conditional && !flags.loop ==> result == template
    // a template without a directive head comes back unchanged
    ensures (forall p :: 0 <= p < |template| ==> !StartsHead(template, p)) ==> result == template
  {
    ms := MatchAll(template);
    HeadsStartWithAt(template, ms);
    result, steps := HandleMatches(template, directives, flags, ms);
  }

  /** The state of the loop over the matches before match `i`: the steps so
      far, followed by the loop from `i` on the template rewritten so far, are
      the loop from the start, and so is what the rewrites give. */
  ghost predicate Progress(template: string, directives: Table, flags: Flags, ms: seq<Head>,
                           result: string, steps: seq<Step>, i: nat)
    requires forall k :: 0 <= k < |ms| ==> StartsWithAt(ms[k].text)
  {
    && steps + Drive(result, directives, flags, ms, i) == Drive(template, directives, flags, ms, 0)
    && ApplyRewrites(result, Drive(result, directives, flags, ms, i), flags)
       == ApplyRewrites(template, Drive(template, directives, flags, ms, 0), flags)
  }

  /** One turn of the loop keeps its state. */
  lemma TurnKeepsProgress(template: string, directives: Table, flags: Flags, ms: seq<Head>,
                          result: string, steps: seq<Step>, i: nat, step: Step)
    requires forall k :: 0 <= k < |ms| ==> StartsWithAt(ms[k].text)
    requires i < |ms| && Progress(template, directives, flags, ms, result, steps, i)
    requires step == StepAt(result, directives, ms, i)
    ensures Progress(template, directives, flags, ms, RewriteStep(step, result, flags), steps + [step], step.Next())
  {
    DriveUnfold(result, directives, flags, ms, i);
    var rest := Drive(RewriteStep(step, result, flags), directives, flags, ms, step.Next());
    ApplyFirst(result, step, rest, flags);
    assert steps + [step] + rest == steps + ([step] + rest);
  }

  /** The loop of `compileDirectives` over the matches, in order, skipping the
      ones an extended expression swallowed. */
  method HandleMatches(template: string, directives: Table, flags: Flags, ms: seq<Head>)
      returns (result: string, ghost steps: seq<Step>)
    requires forall k :: 0 <= k < |ms| ==> StartsWithAt(ms[k].text)
    ensures steps == Drive(template, directives, flags, ms, 0)
    ensures result == ApplyRewrites(template, steps, flags)
  {
    result, steps := template, [];
    var i := 0;
    while i < |ms|
      invariant Progress(template, directives, flags, ms, result, steps, i)
      decreases |ms| - i
    {
      var found, last := ExtendExpression(result, ms, i);
      PrefixStartsWithAt(ms[i].text, found);
      var step := Step(i, last, Classify(found, directives), found);
      TurnKeepsProgress(template, directives, flags, ms, result, steps, i, step);
      steps := steps + [step];
      result := RewriteStep(step, result, flags);
      i := step.Next();
    }
    assert Drive(result, directives, flags, ms, i) == [];
  }

  /** The closure registered as a Blade precompiler: the custom conditions are
      added to the fixed directive pairs, then the template is compiled. */
  method Precompile(entire: string, conditions: seq<string>, flags: Flags)
      returns (result: string, ghost directives: Table, ghost ms: seq<Head>, ghost steps: seq<Step>)
    // the table: the fixed directives first, then the registered conditions, and nothing else
    ensures UniqueKeys(directives) && forall i :: 0 <= i < |directives| ==> IsPair(directives[i])
    ensures |Base| <= |directives| && forall i :: 0 <= i < |Base| ==> directives[i].0 == Base[i].0
    ensures forall n :: n in conditions ==> Lookup(directives, "@" + n) == Some("@end" + n)
    ensures forall k :: HasKey(directives, k) ==> HasKey(Base, k) || exists n :: n in conditions && k == "@" + n
    // the matches and the steps, as in `CompileDirectives`
    ensures forall h :: h in ms ==> HeadAt(entire, h.pos) == Some(h)
    ensures forall k, l :: 0 <= k < l < |ms| ==> ms[k].pos + |ms[k].text| <= ms[l].pos
    ensures forall p :: 0 <= p < |entire| && StartsHead(entire, p) ==> Covered(ms, p)
    ensures forall k :: 0 <= k < |ms| ==> StartsWithAt(ms[k].text)
    ensures steps == Drive(entire, directives, flags, ms, 0)
    ensures result == ApplyRewrites(entire, steps, flags)
    ensures Embeds(entire, result)
    ensures !flags.conditional && !flags.loop ==> result == entire
  {
    var table := RegisterConditions(conditions);
    directives := table;
    result, ms, steps := CompileDirectives(entire, table, flags);
  }
}

=== FILE: directives.dfy ===
/** The opening -> closing directive table (`registerPrecompilers`). */
module Directives {
  import opened Text

  /** An ordered opening -> closing map as a PHP array holds it: one entry per
      key, and a key keeps the position it was first written at. */
  type Table = seq<(string, string)>

  predicate HasKey(t: Table, k: string) {
    exists i :: 0 <= i < |t| && t[i].0 == k
  }

  predicate UniqueKeys(t: Table) {
    forall i, j :: 0 <= i < j < |t| ==> t[i].0 != t[j].0
  }

  /** Position of the entry whose key is `k`, searching from `from`. */
  function KeyIndex(t: Table, k: string, from: nat): (r: Option<nat>)
    ensures r.Some? ==> from <= r.value < |t| && t[r.value].0 == k
    ensures r.Some? ==> forall j :: from <= j < r.value ==> t[j].0 != k
    ensures r.None? ==> forall j :: from <= j < |t| ==> t[j].0 != k
    decreases |t| - from
  {
    if from >= |t| then None
    else if t[from].0 == k then Some(from)
    else KeyIndex(t, k, from + 1)
  }

  /** The closing name paired with `k`, if `k` is an opening name of the table. */
  function Lookup(t: Table, k: string): (r: Option<string>)
    ensures r.Some? <==> HasKey(t, k)
    ensures r.Some? ==> exists i :: 0 <= i < |t| && t[i] == (k, r.value)
  {
    match KeyIndex(t, k, 0)
    case Some(i) => Some(t[i].1)
    case None => None
  }

  /** The opening names, in table order (`array_keys`). */
  function Openings(t: Table): (r: seq<string>)
    ensures |r| == |t| && forall i :: 0 <= i < |t| ==> r[i] == t[i].0
    ensures forall k :: k in r <==> HasKey(t, k)
  {
    seq(|t|, i requires 0 <= i < |t| => t[i].0)
  }

  /** The closing names, in table order (`array_values`). */
  function Closings(t: Table): (r: seq<string>)
    ensures |r| == |t| && forall i :: 0 <= i < |t| ==> r[i] == t[i].1
    ensures forall v :: v in r <==> exists i :: 0 <= i < |t| && t[i].1 == v
  {
    seq(|t|, i requires 0 <= i < |t| => t[i].1)
  }

  /** The fixed block directives, each paired with its closing directive. */
  const Base: Table := [
    ("@if", "@endif"),
    ("@unless", "@endunless"),
    ("@error", "@enderror"),
    ("@isset", "@endisset"),
    ("@empty", "@endempty"),
    ("@auth", "@endauth"),
    ("@guest", "@endguest"),
    ("@switch", "@endswitch"),
    ("@foreach", "@endforeach"),
    ("@forelse", "@endforelse"),
    ("@while", "@endwhile"),
    ("@for", "@endfor")
  ]

  /** An entry pairs `@name` with `@endname`. */
  predicate IsPair(e: (string, string)) {
    |e.0| > 0 && e.0[0] == '@' && e.1 == "@end" + e.0[1..]
  }

  /** Every fixed directive is paired with `@end` followed by its own name. */
  lemma BaseIsPaired()
    ensures UniqueKeys(Base)
    ensures forall i :: 0 <= i < |Base| ==> IsPair(Base[i])
  {
    assert "@endif" == "@end" + "@if"[1..];
    assert "@endunless" == "@end" + "@unless"[1..];
    assert "@enderror" == "@end" + "@error"[1..];
    assert "@endisset" == "@end" + "@isset"[1..];
    assert "@endempty" == "@end" + "@empty"[1..];
    assert "@endauth" == "@end" + "@auth"[1..];
    assert "@endguest" == "@end" + "@guest"[1..];
    assert "@endswitch" == "@end" + "@switch"[1..];
    assert "@endforeach" == "@end" + "@foreach"[1..];
    assert "@endforelse" == "@end" + "@forelse"[1..];
    assert "@endwhile" == "@end" + "@while"[1..];
    assert "@endfor" == "@end" + "@for"[1..];
  }

  /** In a table of pairs, an opening name looks up its own `@end` name. */
  lemma LookupPaired(t: Table, k: string)
    requires forall i :: 0 <= i < |t| ==> IsPair(t[i])
    requires HasKey(t, k)
    ensures |k| > 0 && Lookup(t, k) == Some("@end" + k[1..])
  {
    var v := Lookup(t, k).value;
    var j :| 0 <= j < |t| && t[j] == (k, v);
    assert IsPair(t[j]);
  }

  /** `$directives[$k] = $v`: an existing key keeps its place and takes the new
      value; a new key goes at the end. */
  function Put(t: Table, k: string, v: string): (r: Table)
    ensures |r| == |t| || (|r| == |t| + 1 && r[|t|] == (k, v))
    ensures forall i :: 0 <= i < |t| ==> r[i].0 == t[i].0
    ensures forall i :: 0 <= i < |r| ==> r[i] == (k, v) || (i < |t| && r[i] == t[i])
    ensures HasKey(r, k) && Lookup(r, k) == Some(v)
    ensures UniqueKeys(t) ==> UniqueKeys(r)
  {
    match KeyIndex(t, k, 0)
    case Some(i) => t[i := (k, v)]
    case None =>
      var r := t + [(k, v)];
      assert r[|t|].0 == k;
      r
  }

  /** What holds of the table once the first `i` condition names are registered. */
  ghost predicate RegisteredUpTo(t: Table, conditions: seq<string>, i: nat)
    requires i <= |conditions|
  {
    && UniqueKeys(t)
    && (forall j :: 0 <= j < |t| ==> IsPair(t[j]))
    && |Base| <= |t| && (forall j :: 0 <= j < |Base| ==> t[j].0 == Base[j].0)
    && (forall j :: 0 <= j < i ==> HasKey(t, "@" + conditions[j]))
    && (forall j :: 0 <= j < |t| ==> j < |Base| || exists m :: 0 <= m < i && t[j].0 == "@" + conditions[m])
  }

  lemma RegisterStep(t: Table, conditions: seq<string>, i: nat)
    requires i < |conditions| && RegisteredUpTo(t, conditions, i)
    ensures RegisteredUpTo(Put(t, "@" + conditions[i], "@end" + conditions[i]), conditions, i + 1)
  {
    var k, v := "@" + conditions[i], "@end" + conditions[i];
    assert IsPair((k, v)) by { assert k[1..] == conditions[i]; }
    var next := Put(t, k, v);
    forall j | 0 <= j < i ensures HasKey(next, "@" + conditions[j]) {
      var m :| 0 <= m < |t| && t[m].0 == "@" + conditions[j];
      assert next[m].0 == "@" + conditions[j];
    }
    forall j | 0 <= j < |next| && |Base| <= j
      ensures exists m :: 0 <= m < i + 1 && next[j].0 == "@" + conditions[m]
    {
      if next[j] != (k, v) {
        var m :| 0 <= m < i && t[j].0 == "@" + conditions[m];
      }
    }
  }

  /** The table the precompiler closure builds: the fixed directives, then
      `@n -> @endn` for every name `n` registered with the Blade conditional
      registry, in registration order. */
  method RegisterConditions(conditions: seq<string>) returns (directives: Table)
    ensures UniqueKeys(directives)
    ensures forall i :: 0 <= i < |directives| ==> IsPair(directives[i])
    ensures |Base| <= |directives| && forall i :: 0 <= i < |Base| ==> directives[i].0 == Base[i].0
    ensures forall n :: n in conditions ==> Lookup(directives, "@" + n) == Some("@end" + n)
    ensures forall k :: HasKey(directives, k) ==> HasKey(Base, k) || exists n :: n in conditions && k == "@" + n
  {
    directives := Base;
    BaseIsPaired();
    for i := 0 to |conditions|
      invariant RegisteredUpTo(directives, conditions, i)
    {
      RegisterStep(directives, conditions, i);
      directives := Put(directives, "@" + conditions[i], "@end" + conditions[i]);
    }
    forall n | n in conditions ensures Lookup(directives, "@" + n) == Some("@end" + n) {
      var c :| 0 <= c < |conditions| && conditions[c] == n;
      LookupPaired(directives, "@" + n);
      assert ("@" + n)[1..] == n;
    }
    forall k | HasKey(directives, k) ensures HasKey(Base, k) || exists n :: n in conditions && k == "@" + n {
      var j :| 0 <= j < |directives| && directives[j].0 == k;
      if j < |Base| {
        assert Base[j].0 == k;
      } else {
        var m :| 0 <= m < |conditions| && k == "@" + conditions[m];
        assert conditions[m] in conditions;
      }
    }
  }
}

=== FILE: extend.dfy ===
/** The loop of `compileDirectives` that extends a head's parenthesised
    expression: while the parentheses of the found text do not pair up, the
    template after the text's first occurrence is added up to its next `)`,
    and a following match that lies in the added text is swallowed. */
module Extension {
  import opened Text
  import opened Locator
  import opened Balance

  /** PHP's `$m ?: null` followed by `isset`: an expression group counts only
      when it is neither empty nor `"0"`. */
  predicate HasExpression(h: Head) {
    h.expr.Some? && h.expr.value != "" && h.expr.value != "0"
  }

  /** The guard of the extension loop: the head has an expression, the text
      ends with `)` and its parentheses do not pair up. */
  ghost predicate Unbalanced(h: Head, found: string) {
    HasExpression(h) && EndsWith(found, ")") && !Balanced(found)
  }

  /** What one round adds: what follows the first occurrence of `found` in the
      template, up to its next `)`, and that `)`. The round adds one `)` and no
      other, and when `found` occurs in the template the text and the addition
      fit in the template plus that one `)`. */
  function Appended(template: string, found: string): (r: string)
    ensures EndsWith(r, ")") && ')' !in r[..|r| - 1]
    ensures Contains(template, found) ==> |found| + |r| <= |template| + 1
  {
    var rest := Before(After(template, found), ')');
    assert (rest + ")")[..|rest|] == rest;
    rest + ")"
  }

  /** When the text occurs in the template with a `)` somewhere after it, a
      round takes the template's own continuation: the text and what the
      round adds occur together, at the text's first occurrence. */
  lemma AppendedContinues(template: string, found: string)
    requires Contains(template, found) && ')' in After(template, found)
    ensures OccursAt(template, IndexOf(template, found, 0).value, found + Appended(template, found))
  {
    var p := IndexOf(template, found, 0).value;
    var after := After(template, found);
    assert after == template[p + |found|..];
    var add := Appended(template, found);
    assert OccursAt(after, 0, add) by {
      BeforeClose(after);
    }
    OccursJoin(template, p, found, add);
  }

  /** Up to and including its first `)`, text holding a `)` is what
      `Before` keeps, followed by that `)`. */
  lemma BeforeClose(s: string)
    requires ')' in s
    ensures OccursAt(s, 0, Before(s, ')') + ")")
  {
    var rest := Before(s, ')');
    assert rest != s;
    assert s[..|rest| + 1] == rest + ")";
  }

  /** Text that occurs at `p`, followed by text that occurs right after it,
      occurs at `p` as one. */
  lemma OccursJoin(t: string, p: nat, a: string, b: string)
    requires OccursAt(t, p, a) && p + |a| <= |t| && OccursAt(t[p + |a|..], 0, b)
    ensures OccursAt(t, p, a + b)
  {
    assert t[p..p + |a| + |b|] == t[p..p + |a|] + t[p + |a|..][..|b|];
  }

  /** Text contained in a string stays contained when more is added on either side. */
  lemma ContainsGrows(a: string, b: string, x: string)
    requires Contains(a, x) || Contains(b, x)
    ensures Contains(a + b, x)
  {
    if Contains(a, x) {
      var p := IndexOf(a, x, 0).value;
      assert (a + b)[p..p + |x|] == a[p..p + |x|];
      assert OccursAt(a + b, p, x);
    } else {
      var p := IndexOf(b, x, 0).value;
      assert OccursAt(b, p, x);
      assert (a + b)[|a|..] == b;
      assert (a + b)[|a| + p..|a| + p + |x|] == (a + b)[|a|..][p..p + |x|];
      assert OccursAt(a + b, |a| + p, x);
    }
  }

  /** The matches after `i`, up to and including `last`, all lie inside `found`. */
  predicate Swallowed(found: string, ms: seq<Head>, i: nat, last: nat)
    requires last < |ms|
    decreases last
  {
    last <= i || (Contains(found, ms[last].text) && Swallowed(found, ms, i, last - 1))
  }

  lemma {:induction false} SwallowedContained(found: string, ms: seq<Head>, i: nat, last: nat)
    requires last < |ms| && Swallowed(found, ms, i, last)
    ensures forall j :: i < j <= last ==> Contains(found, ms[j].text)
    decreases last
  {
    if i < last {
      SwallowedContained(found, ms, i, last - 1);
    }
  }

  lemma {:induction false} SwallowedGrows(found: string, more: string, ms: seq<Head>, i: nat, last: nat)
    requires last < |ms| && Swallowed(found, ms, i, last)
    ensures Swallowed(found + more, ms, i, last)
    decreases last
  {
    if i < last {
      ContainsGrows(found, more, ms[last].text);
      SwallowedGrows(found, more, ms, i, last - 1);
    }
  }

  /** One round keeps the swallowed matches inside the text, and the match it
      swallows lies inside the added text. */
  lemma SwallowedRound(found: string, add: string, ms: seq<Head>, i: nat, last: nat, last': nat)
    requires last < |ms| && (last' == last || (last' == last + 1 < |ms| && Contains(add, ms[last'].text)))
    ensures Swallowed(found, ms, i, last) ==> Swallowed(found + add, ms, i, last')
  {
    if Swallowed(found, ms, i, last) {
      SwallowedGrows(found, add, ms, i, last);
      if last' != last {
        ContainsGrows(found, add, ms[last'].text);
      }
    }
  }

  /** The next value of `last`: the following match is swallowed when it
      lies in the text the round adds. */
  function NextLast(ms: seq<Head>, add: string, last: nat): nat {
    if last + 1 < |ms| && Contains(add, ms[last + 1].text) then last + 1 else last
  }

  /** One round of the loop: the text with what the round adds, and the index
      of the last match swallowed after it. */
  function Round(template: string, ms: seq<Head>, found: string, last: nat): (r: (string, nat))
    requires last < |ms|
    ensures found <= r.0 && last <= r.1 < |ms|
  {
    var add := Appended(template, found);
    (found + add, NextLast(ms, add, last))
  }

  /** The extension loop of match `i`, from the text `found` with `last` the
      index of the last match swallowed so far. It leaves the loop when the
      text no longer occurs in the template (`After` then returns the whole
      template), which is what the test at line 105 is meant to do. */
  ghost function Extend(template: string, ms: seq<Head>, i: nat, found: string, last: nat): (r: (string, nat))
    requires i <= last < |ms|
    ensures last <= r.1 < |ms| && found <= r.0
    ensures !HasExpression(ms[i]) ==> r == (found, last)
    ensures Swallowed(found, ms, i, last) ==> Swallowed(r.0, ms, i, r.1)
    // it stops once the parentheses pair up, or the text no longer occurs
    ensures !Unbalanced(ms[i], r.0) || !Contains(template, r.0)
    decreases |template| + 1 - |found|
  {
    if !Unbalanced(ms[i], found) || After(template, found) == template then (found, last)
    else
      var next := Round(template, ms, found, last);
      SwallowedRound(found, Appended(template, found), ms, i, last, next.1);
      Extend(template, ms, i, next.0, next.1)
  }

  /** The extension loop, as `compileDirectives` runs it on match `i` against
      the template as rewritten so far. */
  method ExtendExpression(template: string, ms: seq<Head>, i: nat) returns (found: string, last: nat)
    requires i < |ms|
    ensures (found, last) == Extend(template, ms, i, ms[i].text, i)
  {
    found, last := ms[i].text, i;
    while true
      invariant i <= last < |ms|
      invariant Extend(template, ms, i, found, last) == Extend(template, ms, i, ms[i].text, i)
      decreases |template| + 1 - |found|
    {
      if !HasExpression(ms[i]) || !EndsWith(found, ")") {
        return;
      }
      var even := HasEvenNumberOfParentheses(found);
      if even {
        return;
      }
      var after := After(template, found);
      if after == template {
        return;
      }
      var rest := Before(after, ')');
      assert rest + ")" == Appended(template, found);
      if last + 1 < |ms| && Contains(rest + ")", ms[last + 1].text) {
        last := last + 1;
      }
      found := found + (rest + ")");
    }
  }

  /** The extension loop as written, after `rounds` rounds. At line 105 the
      result of `str($template)->after(...)`, a `Stringable` object, is
      compared with the string `$template` by `===`, which never holds, so
      the break is never taken: every round runs in full, and the loop only
      ends once its guard `Unbalanced` fails. */
  ghost function AsWrittenAfter(template: string, ms: seq<Head>, i: nat, rounds: nat): (r: (string, nat))
    requires i < |ms|
    ensures ms[i].text <= r.0 && i <= r.1 < |ms|
  {
    if rounds == 0 then (ms[i].text, i)
    else
      var before := AsWrittenAfter(template, ms, i, rounds - 1);
      Round(template, ms, before.0, before.1)
  }

  /** The only `)` of the text is its last character. */
  predicate LastParenOnly(t: string) {
    t != [] && t[|t| - 1] == ')' && ')' !in t[..|t| - 1]
  }

  /** The part of a template before its first `)`, and that `)`, give back
      the whole template when its only `)` is its last character. */
  lemma BeforeLast(t: string)
    requires LastParenOnly(t)
    ensures Before(t, ')') + ")" == t
  {
    assert Before(t, ')') == t[..|t| - 1];
  }

  /** Once the text is longer than the template it no longer occurs there,
      so a round adds the template up to its first `)`. */
  lemma RoundAddsTemplate(t: string, found: string)
    requires LastParenOnly(t) && |found| > |t|
    ensures Appended(t, found) == t
  {
    assert IndexOf(t, found, 0) == None;
    BeforeLast(t);
  }

  /** Text without quote characters: each character is its own token. */
  predicate QuoteFree(s: string) {
    forall j :: 0 <= j < |s| ==> !IsQuote(s[j])
  }

  /** More `(` than `)`: the parentheses cannot pair up. */
  predicate Surplus(s: string) {
    multiset(s)['('] > multiset(s)[')']
  }

  /** Quote-free text followed by quote-free text is quote-free, and a
      surplus of `(` on both sides stays one. */
  lemma QuoteFreeAppend(a: string, b: string)
    requires QuoteFree(a) && QuoteFree(b) && Surplus(a) && Surplus(b)
    ensures QuoteFree(a + b) && Surplus(a + b)
  {
    assert multiset(a + b) == multiset(a) + multiset(b);
    forall j | 0 <= j < |a + b| ensures !IsQuote((a + b)[j]) {
      if j < |a| {
        assert (a + b)[j] == a[j];
      } else {
        assert (a + b)[j] == b[j - |a|];
      }
    }
  }

  /** Adding the template to text ending with `)` keeps it ending with `)`,
      as the template itself does. */
  lemma EndsWithTemplate(found: string, t: string)
    requires t != [] && t[|t| - 1] == ')'
    ensures EndsWith(found + t, ")")
  {
    assert (found + t)[|found + t| - 1..] == t[|t| - 1..];
  }

  /** The situation in which the loop as written runs away: the template is
      quote-free, holds more `(` than `)` and its only `)` is its last
      character, and the text, longer than the template, is quote-free, ends
      with `)` and holds more `(` than `)` too. */
  predicate Runaway(t: string, found: string) {
    QuoteFree(t) && Surplus(t) && LastParenOnly(t)
    && QuoteFree(found) && Surplus(found) && EndsWith(found, ")") && |found| > |t|
  }

  /** A runaway round adds the whole template, and the loop is still running away. */
  lemma RunawayRound(t: string, found: string)
    requires Runaway(t, found)
    ensures Appended(t, found) == t && Runaway(t, found + t)
  {
    RoundAddsTemplate(t, found);
    QuoteFreeAppend(found, t);
    EndsWithTemplate(found, t);
  }

  /** A runaway text is rejected by the parenthesis check. */
  lemma RunawayUnbalanced(h: Head, t: string, found: string)
    requires HasExpression(h) && Runaway(t, found)
    ensures Unbalanced(h, found)
  {
    BalancedQuoteFree(found);
  }

  /** As written, the loop never ends once it runs away: every round adds
      the whole template, so the surplus of `(` only grows. */
  lemma {:induction false} NeverPairsUp(t: string, ms: seq<Head>, i: nat, rounds: nat)
    requires i < |ms| && HasExpression(ms[i]) && Runaway(t, AsWrittenAfter(t, ms, i, 1).0)
    requires rounds >= 1
    ensures Unbalanced(ms[i], AsWrittenAfter(t, ms, i, rounds).0)
  {
    RunawayAfter(t, ms, i, rounds);
    RunawayUnbalanced(ms[i], t, AsWrittenAfter(t, ms, i, rounds).0);
  }

  lemma {:induction false} RunawayAfter(t: string, ms: seq<Head>, i: nat, rounds: nat)
    requires i < |ms| && Runaway(t, AsWrittenAfter(t, ms, i, 1).0)
    requires rounds >= 1
    ensures Runaway(t, AsWrittenAfter(t, ms, i, rounds).0)
  {
    if rounds > 1 {
      RunawayAfter(t, ms, i, rounds - 1);
      RunawayRound(t, AsWrittenAfter(t, ms, i, rounds - 1).0);
    }
  }

  /** The template `@if(((a)` and its one head. */
  const Stray: string := "@if(((a)"
  const StrayHead: Head := Head(0, Stray, "if", "", Some("((a"))

  /** `StrayHead` is the head pattern's match at the start of `Stray`, and the
      only one. */
  lemma StrayHeadIsTheMatch()
    ensures HeadAt(Stray, 0) == Some(StrayHead)
    ensures forall p :: 0 < p < |Stray| ==> !StartsHead(Stray, p)
  {
    StrayHeadAt();
  }

  lemma StrayHeadAt()
    ensures HeadAt(Stray, 0) == Some(StrayHead)
  {
    var t := Stray;
    assert StartsHead(t, 0) && NameStart(t, 0) == 1;
    assert WordEnd(t, 3) == 3 && WordEnd(t, 2) == 3 && WordEnd(t, 1) == 3;
    assert NameEnd(t, 0) == 3;
    assert BlankEnd(t, 3) == 3;
    assert CloseAt(t, 7) == Some(7) && CloseAt(t, 6) == Some(7) && CloseAt(t, 5) == Some(7) && CloseAt(t, 4) == Some(7);
    assert t[0..8] == t && t[1..3] == "if" && t[3..3] == "" && t[4..7] == "((a";
  }

  lemma StrayQuoteFree()
    ensures QuoteFree(Stray)
  {
  }

  lemma StrayParens()
    ensures multiset(Stray)['('] == 3 && multiset(Stray)[')'] == 1
  {
  }

  lemma StrayLastParen()
    ensures LastParenOnly(Stray)
  {
  }

  /** The parentheses of `@if(((a)` do not pair up. */
  lemma StrayUnbalanced()
    ensures Unbalanced(StrayHead, Stray)
  {
    StrayQuoteFree();
    StrayParens();
    assert EndsWith(Stray, ")");
    SurplusUnbalanced(StrayHead, Stray);
  }

  /** The head occurs at the very start of the template, so the first round
      adds only `)`. */
  lemma StrayAppended()
    ensures Appended(Stray, Stray) == ")"
  {
    assert Stray[0..|Stray|] == Stray;
    assert IndexOf(Stray, Stray, 0) == Some(0);
  }

  /** After the first round the loop runs away. */
  lemma StrayRunaway()
    ensures Runaway(Stray, Stray + ")")
  {
    var next := Stray + ")";
    StrayQuoteFree();
    StrayParens();
    StrayLastParen();
    assert multiset(next) == multiset(Stray) + multiset{')'};
    forall j | 0 <= j < |next| ensures !IsQuote(next[j]) {
      if j < |Stray| {
        assert next[j] == Stray[j];
      }
    }
    assert next[|next| - 1..] == ")";
  }

  /** As written, the loop never ends on `@if(((a)`: after any number of
      rounds the parentheses of the text still do not pair up. */
  lemma AsWrittenNeverStops(rounds: nat)
    ensures Unbalanced(StrayHead, AsWrittenAfter(Stray, [StrayHead], 0, rounds).0)
  {
    if rounds == 0 {
      StrayUnbalanced();
    } else {
      StrayRunsAway();
      NeverPairsUp(Stray, [StrayHead], 0, rounds);
    }
  }

  /** After its first round the loop as written runs away on `@if(((a)`. */
  lemma StrayRunsAway()
    ensures HasExpression(StrayHead) && Runaway(Stray, AsWrittenAfter(Stray, [StrayHead], 0, 1).0)
  {
    assert AsWrittenAfter(Stray, [StrayHead], 0, 1).0 == Stray + ")" by {
      StrayAppended();
    }
    StrayRunaway();
  }

  /** As intended, the loop stops after one round on `@if(((a)`, once the
      extended text `@if(((a))` no longer occurs in the template. */
  lemma IntendedStops()
    ensures Extend(Stray, [StrayHead], 0, StrayHead.text, 0) == (Stray + ")", 0)
  {
    StrayUnbalanced();
    StrayAppended();
    assert NextLast([StrayHead], ")", 0) == 0;
    assert After(Stray, Stray) != Stray;
    assert After(Stray, Stray + ")") == Stray;
  }

  /** The template `@if(f(1))`, a condition holding a call, and its one head:
      the lazy group stops at the call's `)`. */
  const Nested: string := "@if(f(1))"
  const NestedHead: Head := Head(0, "@if(f(1)", "if", "", Some("f(1"))

  /** `NestedHead` is the head pattern's match at the start of `Nested`, and
      the only one. */
  lemma NestedHeadIsTheMatch()
    ensures HeadAt(Nested, 0) == Some(NestedHead)
    ensures forall p :: 0 < p < |Nested| ==> !StartsHead(Nested, p)
  {
    NestedHeadAt();
  }

  lemma NestedHeadAt()
    ensures HeadAt(Nested, 0) == Some(NestedHead)
  {
    var t := Nested;
    assert StartsHead(t, 0) && NameStart(t, 0) == 1;
    assert WordEnd(t, 3) == 3 && WordEnd(t, 2) == 3 && WordEnd(t, 1) == 3;
    assert NameEnd(t, 0) == 3;
    assert BlankEnd(t, 3) == 3;
    assert CloseAt(t, 7) == Some(7) && CloseAt(t, 6) == Some(7) && CloseAt(t, 5) == Some(7) && CloseAt(t, 4) == Some(7);
    assert t[0..8] == "@if(f(1)" && t[1..3] == "if" && t[3..3] == "" && t[4..7] == "f(1";
  }

  /** The cut text `@if(f(1)` does not pair up, and the whole `@if(f(1))` does. */
  lemma NestedParens()
    ensures Unbalanced(NestedHead, NestedHead.text) && !Unbalanced(NestedHead, Nested)
  {
    NestedCutOpen();
    NestedWholeCloses();
  }

  lemma NestedCutOpen()
    ensures Unbalanced(NestedHead, NestedHead.text)
  {
    NestedQuoteFree();
    NestedCutParens();
    assert EndsWith(NestedHead.text, ")");
    SurplusUnbalanced(NestedHead, NestedHead.text);
  }

  lemma NestedWholeCloses()
    ensures Balanced(Nested)
  {
    NestedQuoteFree();
    NestedCutParens();
    assert Nested == NestedHead.text + ")";
    OneCloseShort(NestedHead.text);
  }

  /** Quote-free text ending with `)` with a surplus of `(` is rejected. */
  lemma SurplusUnbalanced(h: Head, found: string)
    requires HasExpression(h) && QuoteFree(found) && Surplus(found) && EndsWith(found, ")")
    ensures Unbalanced(h, found)
  {
    BalancedQuoteFree(found);
  }

  /** Quote-free text one `)` short of pairing up pairs up once a `)` is added. */
  lemma OneCloseShort(cut: string)
    requires QuoteFree(cut) && multiset(cut)['('] == multiset(cut)[')'] + 1
    ensures Balanced(cut + ")")
  {
    var whole := cut + ")";
    assert multiset(whole) == multiset(cut) + multiset{')'};
    assert QuoteFree(whole) by {
      forall j | 0 <= j < |whole| ensures !IsQuote(whole[j]) {
        if j < |cut| {
          assert whole[j] == cut[j];
        }
      }
    }
    BalancedQuoteFree(whole);
  }

  lemma NestedQuoteFree()
    ensures QuoteFree(NestedHead.text) && QuoteFree(Nested)
  {
  }

  lemma NestedCutParens()
    ensures multiset(NestedHead.text)['('] == 2 && multiset(NestedHead.text)[')'] == 1
  {
  }

  /** One round repairs the cut: the template's `)` after the head is added. */
  lemma NestedAppended()
    ensures Appended(Nested, NestedHead.text) == ")"
    ensures After(Nested, NestedHead.text) == ")"
  {
    assert Nested[0..8] == NestedHead.text;
    assert IndexOf(Nested, NestedHead.text, 0) == Some(0);
  }

  /** The intended loop repairs an ordinary nested call: on `@if(f(1))` it
      extends the match `@if(f(1)` by the template's own `)` and stops with
      the whole condition, swallowing no other match. */
  lemma NestedRepaired()
    ensures Extend(Nested, [NestedHead], 0, NestedHead.text, 0) == (Nested, 0)
  {
    NestedParens();
    assert Extend(Nested, [NestedHead], 0, Nested, 0) == (Nested, 0);
    assert After(Nested, NestedHead.text) != Nested by {
      NestedAppended();
    }
    NestedRound();
  }

  /** The round on the cut text adds `)` and swallows nothing. */
  lemma NestedRound()
    ensures Round(Nested, [NestedHead], NestedHead.text, 0) == (Nested, 0)
  {
    NestedAppended();
    assert NestedHead.text + ")" == Nested;
    assert NextLast([NestedHead], ")", 0) == 0;
  }
}

=== FILE: locator.dfy ===
/** The directive-head scanner: every match of the generic Blade statement
    pattern `\B@(@?\w+(?:::\w+)?)([ \t]*)(\(([\S\s]*?)\))?`, found left to right
    without overlap, as `preg_match_all` reports them. */
module Locator {
  import opened Text

  /** One match: where it starts, the whole matched text, the name (group 1,
      with the escaping second `@` when there is one), the blanks after it
      (group 2), and the text between the parentheses (group 4), if any. */
  datatype Head = Head(pos: nat, text: string, name: string, space: string, expr: Option<string>)

  /** The parenthesised part of a head as matched (group 3). */
  function Group(expr: Option<string>): string {
    match expr
    case None => ""
    case Some(e) => "(" + e + ")"
  }

  function WordEnd(t: string, i: nat): (r: nat)
    requires i <= |t|
    ensures i <= r <= |t|
    ensures forall k :: i <= k < r ==> IsWord(t[k])
    ensures r == |t| || !IsWord(t[r])
    decreases |t| - i
  {
    if i < |t| && IsWord(t[i]) then WordEnd(t, i + 1) else i
  }

  predicate IsBlank(c: char) {
    c == ' ' || c == '\t'
  }

  function BlankEnd(t: string, i: nat): (r: nat)
    requires i <= |t|
    ensures i <= r <= |t|
    ensures forall k :: i <= k < r ==> IsBlank(t[k])
    ensures r == |t| || !IsBlank(t[r])
    decreases |t| - i
  {
    if i < |t| && IsBlank(t[i]) then BlankEnd(t, i + 1) else i
  }

  /** The first `)` at or after `i`: where the lazy `[\S\s]*?` stops. */
  function CloseAt(t: string, i: nat): (r: Option<nat>)
    ensures r.Some? ==> i <= r.value < |t| && t[r.value] == ')'
    ensures r.Some? ==> forall k :: i <= k < r.value ==> t[k] != ')'
    ensures r.None? ==> forall k :: i <= k < |t| ==> t[k] != ')'
    decreases |t| - i
  {
    if i >= |t| then None
    else if t[i] == ')' then Some(i)
    else CloseAt(t, i + 1)
  }

  /** Where the name starts: after the optional second `@`. */
  function NameStart(t: string, i: nat): nat {
    if i + 1 < |t| && t[i + 1] == '@' then i + 2 else i + 1
  }

  /** `\B@@?\w`: an at sign that is not preceded by a word character and is
      followed, after at most one more at sign, by a word character. Dropping
      the optional `@` cannot rescue a failed match, since `@` is not `\w`. */
  predicate StartsHead(t: string, i: nat) {
    && i < |t| && t[i] == '@'
    && (i == 0 || !IsWord(t[i - 1]))
    && NameStart(t, i) < |t| && IsWord(t[NameStart(t, i)])
  }

  /** Where the name (with its optional `::word` part) ends. */
  function NameEnd(t: string, i: nat): (n: nat)
    requires StartsHead(t, i)
    ensures NameStart(t, i) < n <= |t|
  {
    var w := WordEnd(t, NameStart(t, i));
    if w + 2 < |t| && t[w] == ':' && t[w + 1] == ':' && IsWord(t[w + 2]) then WordEnd(t, w + 2) else w
  }

  /** The match of the head pattern that starts at `i`, if one does. */
  function HeadAt(t: string, i: nat): (r: Option<Head>)
    ensures r.Some? <==> StartsHead(t, i)
    ensures r.Some? ==> r.value.pos == i && OccursAt(t, i, r.value.text) && |r.value.text| >= 2
  {
    if !StartsHead(t, i) then None
    else
      var n := NameEnd(t, i);
      var s := BlankEnd(t, n);
      var e := if s < |t| && t[s] == '(' then CloseAt(t, s + 1) else None;
      var end := if e.Some? then e.value + 1 else s;
      var expr := if e.Some? then Some(t[s + 1..e.value]) else None;
      Some(Head(i, t[i..end], t[i + 1..n], t[n..s], expr))
  }

  /** The parts of a match spell out its text. */
  lemma HeadAtParts(t: string, i: nat)
    requires StartsHead(t, i)
    ensures var h := HeadAt(t, i).value; h.text == "@" + h.name + h.space + Group(h.expr)
  {
    var h := HeadAt(t, i).value;
    var n := NameEnd(t, i);
    var s := BlankEnd(t, n);
    assert h.name == t[i + 1..n] && h.space == t[n..s];
    SpellsOut(t, i, n, s, |h.text| + i, h.expr);
  }

  /** The name of a match is as long as it can be, and so are the blanks after
      it: a name with no `::` part is not followed by `::` and a word character. */
  lemma HeadAtMaximal(t: string, i: nat)
    requires StartsHead(t, i)
    ensures var h := HeadAt(t, i).value; var n := i + 1 + |h.name|; var s := n + |h.space|;
      && (n == |t| || !IsWord(t[n]))
      && (':' !in h.name ==> !(n + 2 < |t| && t[n] == ':' && t[n + 1] == ':' && IsWord(t[n + 2])))
      && (forall k :: 0 <= k < |h.space| ==> IsBlank(h.space[k]))
      && (s == |t| || !IsBlank(t[s]))
  {
    NameMaximal(t, i);
  }

  /** The name's end: no word character follows, and a name with no `:`
      stopped where no `::word` part could follow. */
  lemma NameMaximal(t: string, i: nat)
    requires StartsHead(t, i)
    ensures var n := NameEnd(t, i);
      && (n == |t| || !IsWord(t[n]))
      && (':' !in t[i + 1..n] ==> !(n + 2 < |t| && t[n] == ':' && t[n + 1] == ':' && IsWord(t[n + 2])))
  {
    var w := WordEnd(t, NameStart(t, i));
    var n := NameEnd(t, i);
    if w + 2 < |t| && t[w] == ':' && t[w + 1] == ':' && IsWord(t[w + 2]) {
      assert n == WordEnd(t, w + 2);
      assert t[i + 1..n][w - (i + 1)] == t[w];
    }
  }

  lemma SpellsOut(t: string, i: nat, n: nat, s: nat, end: nat, expr: Option<string>)
    requires i < n <= s <= end <= |t| && t[i] == '@'
    requires expr.None? ==> end == s
    requires expr.Some? ==> s < end && t[s] == '(' && t[end - 1] == ')' && expr.value == t[s + 1..end - 1]
    ensures t[i..end] == "@" + t[i + 1..n] + t[n..s] + Group(expr)
  {
    assert t[i..end] == [t[i]] + t[i + 1..n] + t[n..s] + t[s..end];
    if expr.Some? {
      assert t[s..end] == [t[s]] + t[s + 1..end - 1] + [t[end - 1]];
    }
  }

  /** The parenthesised part ends at the FIRST `)` after its `(`, so a nested
      call cuts it short; and it is present whenever the `(` right after the
      blanks has any `)` after it. */
  lemma HeadAtExpr(t: string, i: nat)
    requires StartsHead(t, i)
    ensures var h := HeadAt(t, i).value; var s := i + 1 + |h.name| + |h.space|;
      && (h.expr.Some? ==> ')' !in h.expr.value)
      && (h.expr.None? ==> !(s < |t| && t[s] == '(' && ')' in t[s + 1..]))
  {
  }

  /** Position `p` lies inside one of the matches. */
  predicate Covered(ms: seq<Head>, p: int) {
    exists k :: 0 <= k < |ms| && ms[k].pos <= p < ms[k].pos + |ms[k].text|
  }

  lemma CoveredAppend(ms: seq<Head>, h: Head, p: int)
    requires Covered(ms, p) || h.pos <= p < h.pos + |h.text|
    ensures Covered(ms + [h], p)
  {
    var r := ms + [h];
    if Covered(ms, p) {
      var k :| 0 <= k < |ms| && ms[k].pos <= p < ms[k].pos + |ms[k].text|;
      assert r[k] == ms[k];
    } else {
      assert r[|ms|] == h;
    }
  }

  /** What holds once the text before `i` has been scanned into `ms`. */
  ghost predicate Scanned(t: string, ms: seq<Head>, i: nat) {
    && i <= |t|
    && (forall h :: h in ms ==> HeadAt(t, h.pos) == Some(h) && h.pos + |h.text| <= i)
    && (forall k, l :: 0 <= k < l < |ms| ==> ms[k].pos + |ms[k].text| <= ms[l].pos)
    && (forall p :: 0 <= p < i && StartsHead(t, p) ==> Covered(ms, p))
  }

  lemma ScanMiss(t: string, ms: seq<Head>, i: nat)
    requires i < |t| && Scanned(t, ms, i) && HeadAt(t, i).None?
    ensures Scanned(t, ms, i + 1)
  {
  }

  lemma ScanHit(t: string, ms: seq<Head>, i: nat, h: Head)
    requires i < |t| && Scanned(t, ms, i) && HeadAt(t, i) == Some(h)
    ensures Scanned(t, ms + [h], i + |h.text|)
  {
    var r := ms + [h];
    forall x | x in r ensures HeadAt(t, x.pos) == Some(x) && x.pos + |x.text| <= i + |h.text| {
      if x != h {
        assert x in ms;
      }
    }
    forall k, l | 0 <= k < l < |r| ensures r[k].pos + |r[k].text| <= r[l].pos {
      if l < |ms| {
        assert r[k] == ms[k] && r[l] == ms[l];
      } else {
        assert r[k] == ms[k] && ms[k] in ms;
      }
    }
    forall p | 0 <= p < i + |h.text| && StartsHead(t, p) ensures Covered(ms + [h], p) {
      CoveredAppend(ms, h, p);
    }
  }

  /** `preg_match_all` with the head pattern: every match, left to right; after
      a match the search resumes where it ended. */
  method MatchAll(t: string) returns (ms: seq<Head>)
    // every reported head is the pattern's match at its own position
    ensures forall h :: h in ms ==> HeadAt(t, h.pos) == Some(h)
    // in source order, without overlap
    ensures forall k, l :: 0 <= k < l < |ms| ==> ms[k].pos + |ms[k].text| <= ms[l].pos
    // nothing is missed: every place a head could start lies inside a match
    ensures forall p :: 0 <= p < |t| && StartsHead(t, p) ==> Covered(ms, p)
    // no match exactly when no head can start anywhere
    ensures ms == [] <==> forall p :: 0 <= p < |t| ==> !StartsHead(t, p)
  {
    ms := [];
    var i := 0;
    while i < |t|
      invariant Scanned(t, ms, i)
    {
      match HeadAt(t, i)
      case None =>
        ScanMiss(t, ms, i);
        i := i + 1;
      case Some(h) =>
        ScanHit(t, ms, i, h);
        ms := ms + [h];
        i := i + |h.text|;
    }
    if ms != [] {
      assert StartsHead(t, ms[0].pos);
    }
  }
}

=== FILE: markers.dfy ===
/** The markers the precompiler inserts, as data: which ones go before and
    after each kind of directive, and the fact that they pair up. */
module Marking {

  /** The block markers, read by the DOM morph, and the loop hooks, which
      key the elements of a loop. */
  datatype Marker = Block | EndBlock | OpenLoop | StartLoop | EndLoop | CloseLoop

  /** The markers inserted at one place: block markers first, then loop hooks. */
  datatype Run = Run(blocks: seq<Marker>, hooks: seq<Marker>) {
    function All(): seq<Marker> { blocks + hooks }
  }

  /** The markers placed before and after a found directive. */
  datatype Wrapping = Wrapping(before: Run, after: Run) {
    predicate IsEmpty() { before.All() == [] && after.All() == [] }
  }

  /** Markers for an opening directive: the block marker when conditional
      markers are on; `openLoop` before and `startLoop` after a loop head. */
  function OpeningMarkers(conditional: bool, loop: bool): (w: Wrapping)
    ensures (Block in w.before.All()) == conditional
    ensures (OpenLoop in w.before.All()) == (StartLoop in w.after.All()) == loop
    ensures w.before.All() == [] ==> w.after.All() == []
  {
    Wrapping(Run(if conditional then [Block] else [], if loop then [OpenLoop] else []),
             Run([], if loop then [StartLoop] else []))
  }

  /** Markers for a closing directive: the end-block marker when conditional
      markers are on; `endLoop` before and `closeLoop` after the end of a loop. */
  function ClosingMarkers(conditional: bool, loop: bool): (w: Wrapping)
    ensures (EndBlock in w.after.All()) == conditional
    ensures (EndLoop in w.before.All()) == (CloseLoop in w.after.All()) == loop
    ensures w.before.All() != [] ==> w.after.All() != []
  {
    Wrapping(Run([], if loop then [EndLoop] else []),
             Run(if conditional then [EndBlock] else [], if loop then [CloseLoop] else []))
  }

  /** Markers for the `@empty` that ends a `@forelse` loop: it closes the loop,
      and carries no block marker. */
  function LoopEmptyMarkers(loop: bool): (w: Wrapping)
    ensures loop ==> w.before.All() == [EndLoop] && w.after.All() == [CloseLoop]
    ensures !loop ==> w.IsEmpty()
  {
    Wrapping(Run([], if loop then [EndLoop] else []), Run([], if loop then [CloseLoop] else []))
  }

  /** Each marker that opens something, and the one that closes it. */
  predicate Opens(m: Marker) {
    m == Block || m == OpenLoop || m == StartLoop
  }

  function Closer(m: Marker): Marker {
    match m
    case Block => EndBlock
    case OpenLoop => CloseLoop
    case StartLoop => EndLoop
    case _ => m
  }

  /** Every marker in the first half opens what its mirror image in the second
      half closes: one nest, innermost in the middle. */
  predicate Mirrored(ms: seq<Marker>) {
    |ms| % 2 == 0 && forall k :: 0 <= k < |ms| / 2 ==> Opens(ms[k]) && Closer(ms[k]) == ms[|ms| - 1 - k]
  }

  /** The block markers a sequence of wrappings inserts, in template order. */
  function Blocks(ws: seq<Wrapping>): seq<Marker> {
    if ws == [] then [] else ws[0].before.blocks + ws[0].after.blocks + Blocks(ws[1..])
  }

  /** The loop hooks a sequence of wrappings inserts, in template order. */
  function Hooks(ws: seq<Wrapping>): seq<Marker> {
    if ws == [] then [] else ws[0].before.hooks + ws[0].after.hooks + Hooks(ws[1..])
  }

  /** The block markers pair up among themselves, and so do the loop hooks:
      the two are separate mechanisms. */
  predicate Nested(ws: seq<Wrapping>) {
    Mirrored(Blocks(ws)) && Mirrored(Hooks(ws))
  }

  lemma PartsOfOne(a: Wrapping)
    ensures Blocks([a]) == a.before.blocks + a.after.blocks
    ensures Hooks([a]) == a.before.hooks + a.after.hooks
  {
    assert [a][1..] == [];
    assert a.before.blocks + a.after.blocks + [] == a.before.blocks + a.after.blocks;
    assert a.before.hooks + a.after.hooks + [] == a.before.hooks + a.after.hooks;
  }

  lemma PartsOfTwo(a: Wrapping, b: Wrapping)
    ensures Blocks([a, b]) == a.before.blocks + a.after.blocks + Blocks([b])
    ensures Hooks([a, b]) == a.before.hooks + a.after.hooks + Hooks([b])
  {
    assert [a, b][1..] == [b];
  }

  lemma PartsOfThree(a: Wrapping, b: Wrapping, c: Wrapping)
    ensures Blocks([a, b, c]) == a.before.blocks + a.after.blocks + Blocks([b, c])
    ensures Hooks([a, b, c]) == a.before.hooks + a.after.hooks + Hooks([b, c])
  {
    assert [a, b, c][1..] == [b, c];
  }

  lemma BlockPair()
    ensures Mirrored([Block, EndBlock])
  {
  }

  lemma LoopPair()
    ensures Mirrored([OpenLoop, StartLoop, EndLoop, CloseLoop])
  {
  }

  /** A block opened and closed with the same switches: the block markers pair
      up, and so do the loop hooks when it is a loop. */
  lemma BlockMarkersPair(conditional: bool, loop: bool)
    ensures Nested([OpeningMarkers(conditional, loop), ClosingMarkers(conditional, loop)])
  {
    var o, c := OpeningMarkers(conditional, loop), ClosingMarkers(conditional, loop);
    PartsOfTwo(o, c);
    PartsOfOne(c);
    if conditional {
      assert Blocks([o, c]) == [Block, EndBlock];
      BlockPair();
    } else {
      assert Blocks([o, c]) == [];
    }
    if loop {
      assert Hooks([o, c]) == [OpenLoop, StartLoop, EndLoop, CloseLoop];
      LoopPair();
    } else {
      assert Hooks([o, c]) == [];
    }
  }

  /** A `@forelse` loop is closed by its `@empty`, which carries the loop-end
      hooks, while `@endforelse` is not the end of a loop and only carries the
      end-block marker. */
  lemma ForelseMarkersPair(conditional: bool, loop: bool)
    ensures Nested([OpeningMarkers(conditional, loop), LoopEmptyMarkers(loop), ClosingMarkers(conditional, false)])
  {
    var o, m, c := OpeningMarkers(conditional, loop), LoopEmptyMarkers(loop), ClosingMarkers(conditional, false);
    PartsOfThree(o, m, c);
    PartsOfTwo(m, c);
    PartsOfOne(c);
    if conditional {
      assert Blocks([o, m, c]) == [Block, EndBlock];
      BlockPair();
    } else {
      assert Blocks([o, m, c]) == [];
    }
    if loop {
      assert Hooks([o, m, c]) == [OpenLoop, StartLoop, EndLoop, CloseLoop];
      LoopPair();
    } else {
      assert Hooks([o, m, c]) == [];
    }
  }

  /** Without its `@empty`, a `@forelse` loop with loop hooks is left open: the
      `@endforelse` does not close it. */
  lemma ForelseNeedsEmpty(conditional: bool)
    ensures !Nested([OpeningMarkers(conditional, true), ClosingMarkers(conditional, false)])
  {
    var o, c := OpeningMarkers(conditional, true), ClosingMarkers(conditional, false);
    PartsOfTwo(o, c);
    PartsOfOne(c);
    var hooks := Hooks([o, c]);
    assert hooks == [OpenLoop, StartLoop];
    assert Closer(hooks[0]) != hooks[|hooks| - 1];
  }
}

=== FILE: rewrite.dfy ===
/** The three rewriters (`prefixOpeningDirective`, `suffixClosingDirective`,
    `suffixLoopEmptyDirective`) and the `preg_replace` they run: every
    qualifying occurrence of the found text, ignoring letter case, is replaced
    by prefix + found + suffix, where prefix and suffix are guarded markers. */
module Rewrite {
  import opened Text
  import opened Classifier
  import opened Marking

  /** The two process-wide switches: conditional (block) markers and loop markers. */
  datatype Flags = Flags(conditional: bool, loop: bool)

  function MarkerText(m: Marker): string {
    match m
    case Block => "<!--[if BLOCK]><![endif]-->"
    case EndBlock => "<!--[if ENDBLOCK]><![endif]-->"
    case OpenLoop => "<?php \\Livewire\\Features\\SupportCompiledWireKeys\\SupportCompiledWireKeys::openLoop(); ?>"
    case StartLoop => "<?php \\Livewire\\Features\\SupportCompiledWireKeys\\SupportCompiledWireKeys::startLoop($loop->index); ?>"
    case EndLoop => "<?php \\Livewire\\Features\\SupportCompiledWireKeys\\SupportCompiledWireKeys::endLoop(); ?>"
    case CloseLoop => "<?php \\Livewire\\Features\\SupportCompiledWireKeys\\SupportCompiledWireKeys::closeLoop(); ?>"
  }

  /** The PHP guard that keeps the markers out of views rendered outside a component. */
  const CheckOpen: string := "<?php if(\\Livewire\\Mechanisms\\ExtendBlade\\ExtendBlade::isRenderingLivewireComponent()): ?>"
  const CheckClose: string := "<?php endif; ?>"

  function Concat(ms: seq<Marker>): string {
    if ms == [] then [] else MarkerText(ms[0]) + Concat(ms[1..])
  }

  /** A run of markers inside one guard; no markers, no text. */
  function Guarded(ms: seq<Marker>): (r: string)
    ensures r == [] <==> ms == []
  {
    if ms == [] then [] else CheckOpen + Concat(ms) + CheckClose
  }

  /** The text inserted before and after a found directive. */
  function Prefix(w: Wrapping): string { Guarded(w.before.All()) }
  function Suffix(w: Wrapping): string { Guarded(w.after.All()) }

  /** `prefixOpeningDirective`'s markers: loop hooks only for a loop head
      when loop markers are on. */
  function OpeningWrapping(found: string, flags: Flags): (w: Wrapping)
    ensures (Block in w.before.All()) == flags.conditional
    ensures (OpenLoop in w.before.All()) == (StartLoop in w.after.All()) == (flags.loop && IsLoop(found))
  {
    OpeningMarkers(flags.conditional, flags.loop && IsLoop(found))
  }

  /** `suffixClosingDirective`'s markers: loop hooks only for the end of a
      loop with loop markers, when loop markers are on. */
  function ClosingWrapping(found: string, flags: Flags): (w: Wrapping)
    ensures (EndBlock in w.after.All()) == flags.conditional
    ensures (EndLoop in w.before.All()) == (CloseLoop in w.after.All()) == (flags.loop && IsEndLoop(found))
  {
    ClosingMarkers(flags.conditional, flags.loop && IsEndLoop(found))
  }

  /** `suffixLoopEmptyDirective`'s markers: the loop-end hooks when loop
      markers are on. */
  function LoopEmptyWrapping(flags: Flags): Wrapping {
    LoopEmptyMarkers(flags.loop)
  }

  /** The replacement pattern: the found text, matched caselessly, with its
      lookarounds. `lookbehind` is `(?<!prefix)`, `lookahead` is `(?!suffix)`,
      `wordEnd` is `(?!\w)` and `noParen` is `(?!\s*\()`; the tag guard
      `(?![^<]*(?<![?=-])>)` is always there. */
  datatype Rule = Rule(found: string, prefix: string, suffix: string,
                       lookbehind: bool, lookahead: bool, wordEnd: bool, noParen: bool)

  /** `s` ends, ignoring case, right before index `i`. An empty `s` always does,
      so an empty negative lookbehind never lets a match through. */
  predicate PrecededBy(t: string, i: nat, s: string) {
    |s| <= i <= |t| && CIEq(t[i - |s|..i], s)
  }

  predicate IsTagGuard(c: char) {
    c == '?' || c == '=' || c == '-'
  }

  /** `[^<]*(?<![?=-])>` at `j`: a `>` before any `<`, not the end of `?>`, `=>`
      or `->`; that is, `j` is inside an HTML tag. */
  predicate TagCloseAhead(t: string, j: nat)
    decreases |t| - j
  {
    j < |t| && t[j] != '<' &&
    ((t[j] == '>' && (j == 0 || !IsTagGuard(t[j - 1]))) || TagCloseAhead(t, j + 1))
  }

  /** A `>` at `k` that ends a tag: not the end of `?>`, `=>` or `->`. */
  predicate TagEnd(t: string, k: nat) {
    k < |t| && t[k] == '>' && (k == 0 || !IsTagGuard(t[k - 1]))
  }

  /** No `<` in `t[j..k]`, ends included. */
  predicate NoOpenBetween(t: string, j: nat, k: nat) {
    forall m :: j <= m <= k && m < |t| ==> t[m] != '<'
  }

  /** The guard reads as PCRE does: there is a tag end ahead with no `<`
      before it. */
  lemma {:induction false} TagCloseAheadMeans(t: string, j: nat)
    ensures TagCloseAhead(t, j) <==> exists k :: j <= k && TagEnd(t, k) && NoOpenBetween(t, j, k)
    decreases |t| - j
  {
    if j < |t| {
      TagCloseAheadMeans(t, j + 1);
      if TagCloseAhead(t, j) {
        if !TagEnd(t, j) {
          var k :| j + 1 <= k && TagEnd(t, k) && NoOpenBetween(t, j + 1, k);
          assert NoOpenBetween(t, j, k);
        } else {
          assert NoOpenBetween(t, j, j);
        }
      }
      if exists k :: j <= k && TagEnd(t, k) && NoOpenBetween(t, j, k) {
        var k :| j <= k && TagEnd(t, k) && NoOpenBetween(t, j, k);
        assert t[j] != '<';
        if k != j {
          assert NoOpenBetween(t, j + 1, k);
        }
      }
    }
  }

  /** The pattern matches at `i`. */
  predicate Qualifies(t: string, rule: Rule, i: nat) {
    var j := i + |rule.found|;
    && CIAt(t, i, rule.found)
    && (rule.lookbehind ==> !PrecededBy(t, i, rule.prefix))
    && (rule.lookahead ==> !CIAt(t, j, rule.suffix))
    && (rule.wordEnd ==> j == |t| || !IsWord(t[j]))
    && (rule.noParen ==> !ParenAfterSpace(t, j))
    && !TagCloseAhead(t, j)
  }

  /** `preg_replace` from index `i`: left to right, each match is replaced by
      prefix + found + suffix (taken literally) and the search resumes after
      it; the pattern is always tested against the original text. */
  function ReplaceAll(t: string, rule: Rule, i: nat): (r: string)
    requires rule.found != []
    ensures |r| >= |t| - i
    decreases |t| - i
  {
    if i >= |t| then []
    else if Qualifies(t, rule, i) then
      rule.prefix + rule.found + rule.suffix + ReplaceAll(t, rule, i + |rule.found|)
    else [t[i]] + ReplaceAll(t, rule, i + 1)
  }

  /** Replacing only inserts text: what was there survives, in order, up to
      the letter case of each replaced occurrence. */
  lemma {:induction false} ReplaceEmbeds(t: string, rule: Rule, i: nat)
    requires rule.found != [] && i <= |t|
    ensures Embeds(t[i..], ReplaceAll(t, rule, i))
    decreases |t| - i
  {
    if i < |t| {
      var r := ReplaceAll(t, rule, i);
      if Qualifies(t, rule, i) {
        var n := |rule.found|;
        ReplaceEmbeds(t, rule, i + n);
        EmbedsWrapped(t, i, rule.prefix, rule.found, rule.suffix, ReplaceAll(t, rule, i + n));
      } else {
        ReplaceEmbeds(t, rule, i + 1);
        EmbedsKept(t, i, ReplaceAll(t, rule, i + 1));
      }
    }
  }

  lemma EmbedsWrapped(t: string, i: nat, prefix: string, found: string, suffix: string, rest: string)
    requires CIAt(t, i, found) && Embeds(t[i + |found|..], rest)
    ensures Embeds(t[i..], prefix + found + suffix + rest)
  {
    var n := |found|;
    EmbedsCIEq(t[i..i + n], found);
    EmbedsAppend(t[i..i + n], found, [], suffix);
    assert t[i..i + n] + [] == t[i..i + n];
    EmbedsInsertLeft(t[i..i + n], found + suffix, prefix);
    EmbedsAppend(t[i..i + n], prefix + (found + suffix), t[i + n..], rest);
    assert t[i..i + n] + t[i + n..] == t[i..];
    assert prefix + (found + suffix) + rest == prefix + found + suffix + rest;
  }

  lemma EmbedsKept(t: string, i: nat, rest: string)
    requires i < |t| && Embeds(t[i + 1..], rest)
    ensures Embeds(t[i..], [t[i]] + rest)
  {
    assert [t[i]] + t[i + 1..] == t[i..];
    EmbedsAppend([t[i]], [t[i]], t[i + 1..], rest);
  }

  /** Where no position qualifies, the text comes back as it was. */
  lemma {:induction false} ReplaceNothing(t: string, rule: Rule, i: nat)
    requires rule.found != [] && i <= |t|
    requires forall j :: i <= j < |t| ==> !Qualifies(t, rule, j)
    ensures ReplaceAll(t, rule, i) == t[i..]
    decreases |t| - i
  {
    if i < |t| {
      assert !Qualifies(t, rule, i);
      ReplaceNothing(t, rule, i + 1);
      assert [t[i]] + t[i + 1..] == t[i..];
    }
  }

  /** With a non-empty wrapping, replacing lengthens the text as soon as one
      position qualifies: so the text changes exactly when some position
      qualifies. */
  lemma {:induction false} ReplaceGrows(t: string, rule: Rule, i: nat, j: nat)
    requires rule.found != [] && i <= |t|
    requires rule.prefix + rule.suffix != [] && i <= j < |t| && Qualifies(t, rule, j)
    ensures |ReplaceAll(t, rule, i)| > |t| - i
    decreases |t| - i
  {
    if !Qualifies(t, rule, i) {
      ReplaceGrows(t, rule, i + 1, j);
    }
  }

  /** The occurrence at `j`, wrapped, followed by the rest of the search. */
  function WrappedAt(t: string, rule: Rule, j: nat): string
    requires rule.found != []
  {
    rule.prefix + rule.found + rule.suffix + ReplaceAll(t, rule, j + |rule.found|)
  }

  /** The text up to the first qualifying position `j` is kept as it is, the
      occurrence there is wrapped, and the search goes on after it. */
  lemma {:induction false} ReplaceFirst(t: string, rule: Rule, i: nat, j: nat)
    requires rule.found != [] && i <= j < |t| && Qualifies(t, rule, j)
    requires forall m :: i <= m < j ==> !Qualifies(t, rule, m)
    ensures ReplaceAll(t, rule, i) == t[i..j] + WrappedAt(t, rule, j)
    decreases j - i
  {
    if i < j {
      ReplaceFirst(t, rule, i + 1, j);
      ReplaceKept(t, rule, i);
      ConsSlice(t, i, j, WrappedAt(t, rule, j));
    } else {
      assert t[i..j] == [];
    }
  }

  lemma ConsSlice(t: string, i: nat, j: nat, w: string)
    requires i < j <= |t|
    ensures [t[i]] + (t[i + 1..j] + w) == t[i..j] + w
  {
    assert [t[i]] + t[i + 1..j] == t[i..j];
  }

  lemma ReplaceKept(t: string, rule: Rule, i: nat)
    requires rule.found != [] && i < |t| && !Qualifies(t, rule, i)
    ensures ReplaceAll(t, rule, i) == [t[i]] + ReplaceAll(t, rule, i + 1)
  {
  }

  /** No position qualifies. */
  predicate NoMatch(t: string, rule: Rule) {
    forall j :: 0 <= j < |t| ==> !Qualifies(t, rule, j)
  }

  /** A rewrite with a non-empty wrapping leaves the template alone exactly
      when no position qualifies. */
  lemma ReplaceChanges(t: string, rule: Rule)
    requires rule.found != [] && rule.prefix + rule.suffix != []
    ensures ReplaceAll(t, rule, 0) == t <==> NoMatch(t, rule)
  {
    if NoMatch(t, rule) {
      ReplaceNothing(t, rule, 0);
    } else {
      var j :| 0 <= j < |t| && Qualifies(t, rule, j);
      ReplaceGrows(t, rule, 0, j);
    }
  }

  /** A wrapped occurrence is not wrapped again: right after its prefix, or
      right before its suffix, the pattern does not match. */
  lemma NotRewrapped(a: string, rule: Rule, b: string)
    requires (rule.lookbehind && rule.prefix != []) || (rule.lookahead && rule.suffix != [])
    ensures !Qualifies(a + rule.prefix + rule.found + rule.suffix + b, rule, |a| + |rule.prefix|)
  {
    var t := a + rule.prefix + rule.found + rule.suffix + b;
    var i := |a| + |rule.prefix|;
    var j := i + |rule.found|;
    if rule.lookbehind && rule.prefix != [] {
      assert t[i - |rule.prefix|..i] == rule.prefix;
      CIEqRefl(rule.prefix);
    } else {
      assert t[j..j + |rule.suffix|] == rule.suffix;
      CIEqRefl(rule.suffix);
    }
  }

  lemma CIEqRefl(s: string)
    ensures CIEq(s, s)
  {
  }

  /** The pattern is only ever built with the lookarounds whose text is not
      empty, so none of them blocks every match. */
  predicate Live(rule: Rule) {
    (rule.lookbehind ==> rule.prefix != []) && (rule.lookahead ==> rule.suffix != [])
  }

  /** `prefixOpeningDirective`: the negative lookbehind for the prefix is always
      in the pattern, the lookahead for the suffix only when there is one. */
  function OpeningRule(found: string, w: Wrapping): Rule {
    Rule(found, Prefix(w), Suffix(w), true, Suffix(w) != [], false, false)
  }

  /** `suffixClosingDirective`: the lookbehind only when there is a prefix, the
      lookahead for the suffix always, and the name must end there. */
  function ClosingRule(found: string, w: Wrapping): Rule {
    Rule(found, Prefix(w), Suffix(w), Prefix(w) != [], true, true, false)
  }

  /** `suffixLoopEmptyDirective`: both lookarounds, and no `(` may follow. */
  function LoopEmptyRule(found: string, w: Wrapping): Rule {
    Rule(found, Prefix(w), Suffix(w), true, true, false, true)
  }

  /** A non-empty wrapping puts text before or after the found directive. */
  lemma WrappingAddsText(w: Wrapping)
    requires !w.IsEmpty()
    ensures Prefix(w) + Suffix(w) != []
  {
  }

  /** `prefixOpeningDirective`: with no markers to add, the template comes back
      as it was; otherwise every qualifying occurrence is wrapped, so the
      template changes exactly when one qualifies. */
  function PrefixOpeningDirective(found: string, template: string, flags: Flags): (r: string)
    requires found != []
    ensures !flags.conditional && !flags.loop ==> r == template
    ensures OpeningWrapping(found, flags).IsEmpty() ==> r == template
    ensures var w := OpeningWrapping(found, flags);
      !w.IsEmpty() ==> Live(OpeningRule(found, w)) && (r == template <==> NoMatch(template, OpeningRule(found, w)))
    ensures Embeds(template, r)
  {
    var w := OpeningWrapping(found, flags);
    if w.IsEmpty() then EmbedsRefl(template); template
    else
      WrappingAddsText(w);
      ReplaceChanges(template, OpeningRule(found, w));
      ReplaceEmbeds(template, OpeningRule(found, w), 0);
      ReplaceAll(template, OpeningRule(found, w), 0)
  }

  /** `suffixClosingDirective`, on the found text with trailing white space
      trimmed. */
  function SuffixClosingDirective(found: string, template: string, flags: Flags): (r: string)
    requires RTrim(found) != []
    ensures !flags.conditional && !flags.loop ==> r == template
    ensures ClosingWrapping(RTrim(found), flags).IsEmpty() ==> r == template
    ensures var f := RTrim(found); var w := ClosingWrapping(f, flags);
      !w.IsEmpty() ==> Live(ClosingRule(f, w)) && (r == template <==> NoMatch(template, ClosingRule(f, w)))
    ensures Embeds(template, r)
  {
    var f := RTrim(found);
    var w := ClosingWrapping(f, flags);
    if w.IsEmpty() then EmbedsRefl(template); template
    else
      WrappingAddsText(w);
      ReplaceChanges(template, ClosingRule(f, w));
      ReplaceEmbeds(template, ClosingRule(f, w), 0);
      ReplaceAll(template, ClosingRule(f, w), 0)
  }

  /** `suffixLoopEmptyDirective`: only loop markers, so nothing happens unless
      they are on. */
  function SuffixLoopEmptyDirective(found: string, template: string, flags: Flags): (r: string)
    requires RTrim(found) != []
    ensures !flags.loop ==> r == template
    ensures var f := RTrim(found); var w := LoopEmptyWrapping(flags);
      flags.loop ==> Live(LoopEmptyRule(f, w)) && (r == template <==> NoMatch(template, LoopEmptyRule(f, w)))
    ensures Embeds(template, r)
  {
    var f := RTrim(found);
    var w := LoopEmptyWrapping(flags);
    if w.IsEmpty() then EmbedsRefl(template); template
    else
      WrappingAddsText(w);
      ReplaceChanges(template, LoopEmptyRule(f, w));
      ReplaceEmbeds(template, LoopEmptyRule(f, w), 0);
      ReplaceAll(template, LoopEmptyRule(f, w), 0)
  }

  /** The first occurrence of an opening directive that qualifies is wrapped in
      its markers, and the template before it is kept as it is. */
  lemma OpeningWrapsFirst(found: string, template: string, flags: Flags, j: nat)
    requires found != [] && !OpeningWrapping(found, flags).IsEmpty()
    requires var rule := OpeningRule(found, OpeningWrapping(found, flags));
      j < |template| && Qualifies(template, rule, j) && forall m :: 0 <= m < j ==> !Qualifies(template, rule, m)
    ensures var w := OpeningWrapping(found, flags);
      PrefixOpeningDirective(found, template, flags)
      == template[..j] + WrappedAt(template, OpeningRule(found, w), j)
  {
    var rule := OpeningRule(found, OpeningWrapping(found, flags));
    assert PrefixOpeningDirective(found, template, flags) == ReplaceAll(template, rule, 0);
    ReplaceFirst(template, rule, 0, j);
  }

  /** The first occurrence of a closing directive that qualifies is wrapped in
      its markers. */
  lemma ClosingWrapsFirst(found: string, template: string, flags: Flags, j: nat)
    requires RTrim(found) != [] && !ClosingWrapping(RTrim(found), flags).IsEmpty()
    requires var rule := ClosingRule(RTrim(found), ClosingWrapping(RTrim(found), flags));
      j < |template| && Qualifies(template, rule, j) && forall m :: 0 <= m < j ==> !Qualifies(template, rule, m)
    ensures var f := RTrim(found); var w := ClosingWrapping(f, flags);
      SuffixClosingDirective(found, template, flags)
      == template[..j] + WrappedAt(template, ClosingRule(f, w), j)
  {
    var f := RTrim(found);
    ReplaceFirst(template, ClosingRule(f, ClosingWrapping(f, flags)), 0, j);
  }

  /** The first `@empty` of a `@forelse` loop that qualifies is wrapped in the
      loop-end hooks. */
  lemma LoopEmptyWrapsFirst(found: string, template: string, flags: Flags, j: nat)
    requires RTrim(found) != [] && flags.loop
    requires var rule := LoopEmptyRule(RTrim(found), LoopEmptyWrapping(flags));
      j < |template| && Qualifies(template, rule, j) && forall m :: 0 <= m < j ==> !Qualifies(template, rule, m)
    ensures var f := RTrim(found); var w := LoopEmptyWrapping(flags);
      SuffixLoopEmptyDirective(found, template, flags)
      == template[..j] + WrappedAt(template, LoopEmptyRule(f, w), j)
  {
    var f := RTrim(found);
    ReplaceFirst(template, LoopEmptyRule(f, LoopEmptyWrapping(flags)), 0, j);
  }

  /** Every occurrence of `s` in `t`, ignoring case, lies inside an HTML tag. */
  predicate InsideTags(t: string, s: string) {
    forall j :: 0 <= j < |t| && CIAt(t, j, s) ==> TagCloseAhead(t, j + |s|)
  }

  /** Occurrences inside an HTML tag are never wrapped: when every occurrence
      of the directive, ignoring case, is followed by the end of a tag, the
      rewriter leaves the template as it was. */
  lemma OpeningInsideTag(found: string, template: string, flags: Flags)
    requires found != []
    requires InsideTags(template, found)
    ensures PrefixOpeningDirective(found, template, flags) == template
  {
    var rule := OpeningRule(found, OpeningWrapping(found, flags));
    assert NoMatch(template, rule) by {
      NeverQualifies(template, found, rule);
    }
  }

  /** The same for a closing directive, with trailing white space trimmed. */
  lemma ClosingInsideTag(found: string, template: string, flags: Flags)
    requires RTrim(found) != []
    requires InsideTags(template, RTrim(found))
    ensures SuffixClosingDirective(found, template, flags) == template
  {
    var f := RTrim(found);
    var rule := ClosingRule(f, ClosingWrapping(f, flags));
    assert NoMatch(template, rule) by {
      NeverQualifies(template, f, rule);
    }
  }

  /** The same for the `@empty` of a `@forelse` loop. */
  lemma LoopEmptyInsideTag(found: string, template: string, flags: Flags)
    requires RTrim(found) != []
    requires InsideTags(template, RTrim(found))
    ensures SuffixLoopEmptyDirective(found, template, flags) == template
  {
    var f := RTrim(found);
    var rule := LoopEmptyRule(f, LoopEmptyWrapping(flags));
    assert NoMatch(template, rule) by {
      NeverQualifies(template, f, rule);
    }
  }

  /** An occurrence followed by the end of a tag does not qualify. */
  lemma NeverQualifies(t: string, found: string, rule: Rule)
    requires rule.found == found && InsideTags(t, found)
    ensures NoMatch(t, rule)
  {
  }

  /** An opening and a closing directive that agree on being a loop get markers
      that pair up: a conditional (or `@for`) block and its end, or a `@foreach`
      or `@while` loop and its end. */
  lemma DirectiveMarkersPair(open: string, close: string, flags: Flags)
    requires IsLoop(open) <==> IsEndLoop(close)
    ensures Nested([OpeningWrapping(open, flags), ClosingWrapping(close, flags)])
  {
    BlockMarkersPair(flags.conditional, flags.loop && IsLoop(open));
  }

  /** An `@if` block gets block markers that pair up, and no loop hooks. */
  lemma IfMarkersPair(e: string, f: string, flags: Flags)
    requires '@' !in e && '@' !in f
    ensures Nested([OpeningWrapping("@if" + e, flags), ClosingWrapping("@endif" + f, flags)])
    ensures Hooks([OpeningWrapping("@if" + e, flags), ClosingWrapping("@endif" + f, flags)]) == []
  {
    IfIsNoLoop(e, f);
    DirectiveMarkersPair("@if" + e, "@endif" + f, flags);
    var o, c := OpeningWrapping("@if" + e, flags), ClosingWrapping("@endif" + f, flags);
    PartsOfTwo(o, c);
    PartsOfOne(c);
  }

  /** A `@forelse` head, its `@empty` and its `@endforelse` get markers that pair up. */
  lemma ForelseDirectivesPair(open: string, close: string, flags: Flags)
    requires IsLoop(open) && !IsEndLoop(close)
    ensures Nested([OpeningWrapping(open, flags), LoopEmptyWrapping(flags), ClosingWrapping(close, flags)])
  {
    ForelseMarkersPair(flags.conditional, flags.loop);
  }
}

=== FILE: text.dfy ===
/** Character classes, caseless comparison and the small string helpers the
    precompiler relies on (PCRE's `\w`, `\s`, caseless literals; Laravel's
    `Str::after`, `Str::before`, `Str::contains`, `Str::endsWith`; PHP's `rtrim`). */
module Text {

  datatype Option<T> = None | Some(value: T)

  /** PCRE caseless matching without the UTF flag folds ASCII letters only. */
  function Fold(c: char): char {
    if 'A' <= c <= 'Z' then (c as int + 32) as char else c
  }

  /** `[a-zA-Z]`, the class the whole-name lookahead `(?![a-zA-Z])` excludes. */
  predicate IsLetter(c: char) {
    'a' <= c <= 'z' || 'A' <= c <= 'Z'
  }

  /** PCRE `\w` outside UTF mode. */
  predicate IsWord(c: char) {
    IsLetter(c) || '0' <= c <= '9' || c == '_'
  }

  /** PCRE `\s`: space, tab, line feed, vertical tab, form feed, carriage return. */
  predicate IsSpace(c: char) {
    c == ' ' || c == '\t' || c == '\n' || c == '\U{0B}' || c == '\U{0C}' || c == '\r'
  }

  /** `[^\S\r\n]`: white space that does not end a line. */
  predicate IsInlineSpace(c: char) {
    IsSpace(c) && c != '\r' && c != '\n'
  }

  /** The characters PHP's `rtrim` strips by default. */
  predicate IsTrimmable(c: char) {
    c == ' ' || c == '\t' || c == '\n' || c == '\r' || c == '\0' || c == '\U{0B}'
  }

  /** Caseless equality of two strings. */
  predicate CIEq(a: string, b: string) {
    |a| == |b| && forall k :: 0 <= k < |a| ==> Fold(a[k]) == Fold(b[k])
  }

  /** `s` occurs in `t` at index `i`, ignoring letter case. */
  predicate CIAt(t: string, i: nat, s: string) {
    i + |s| <= |t| && CIEq(t[i..i + |s|], s)
  }

  /** `s` occurs in `t` at index `i`, exactly. */
  predicate OccursAt(t: string, i: nat, s: string) {
    i + |s| <= |t| && t[i..i + |s|] == s
  }

  /** Index of the first exact occurrence of `s` in `t` at or after `from`. */
  function IndexOf(t: string, s: string, from: nat): (r: Option<nat>)
    ensures r.Some? ==> from <= r.value && OccursAt(t, r.value, s)
    ensures r.Some? ==> forall j :: from <= j < r.value ==> !OccursAt(t, j, s)
    ensures r.None? ==> forall j :: from <= j ==> !OccursAt(t, j, s)
    decreases |t| - from
  {
    if from + |s| > |t| then None
    else if t[from..from + |s|] == s then Some(from)
    else IndexOf(t, s, from + 1)
  }

  /** Laravel `Str::contains` with one needle: an empty needle is never contained. */
  predicate Contains(haystack: string, needle: string) {
    needle != [] && IndexOf(haystack, needle, 0).Some?
  }

  /** Laravel `Str::endsWith` with one needle. */
  predicate EndsWith(s: string, needle: string) {
    needle != [] && |needle| <= |s| && s[|s| - |needle|..] == needle
  }

  /** Laravel `Str::after`: what follows the first occurrence of `search`,
      or the whole subject when `search` is empty or absent. */
  function After(subject: string, search: string): (r: string)
    ensures search != [] && IndexOf(subject, search, 0).Some? ==>
              var p := IndexOf(subject, search, 0).value;
              r == subject[p + |search|..] && |r| < |subject|
    ensures search == [] || IndexOf(subject, search, 0).None? ==> r == subject
  {
    if search == [] then subject
    else match IndexOf(subject, search, 0)
      case None => subject
      case Some(p) => subject[p + |search|..]
  }

  /** Laravel `Str::before` for a one-character search: what precedes the first
      `c`, or the whole subject when there is none. */
  function Before(subject: string, c: char): (r: string)
    ensures r <= subject
    ensures c !in r
    ensures |r| < |subject| ==> subject[|r|] == c
  {
    if subject == [] then []
    else if subject[0] == c then []
    else [subject[0]] + Before(subject[1..], c)
  }

  /** PHP `rtrim` with its default character list. */
  function RTrim(s: string): (r: string)
    ensures r <= s
    ensures r == [] || !IsTrimmable(r[|r| - 1])
    ensures forall k :: |r| <= k < |s| ==> IsTrimmable(s[k])
  {
    if s == [] || !IsTrimmable(s[|s| - 1]) then s else RTrim(s[..|s| - 1])
  }

  /** `a` survives in `b` with nothing removed: its characters appear in `b`
      in order, up to letter case, with anything at all inserted between them. */
  predicate Embeds(a: string, b: string)
    decreases |b|
  {
    if a == [] then true
    else if b == [] then false
    else if Fold(a[0]) == Fold(b[0]) then Embeds(a[1..], b[1..])
    else Embeds(a, b[1..])
  }

  lemma {:induction false} EmbedsDropFirst(a: string, b: string)
    requires a != [] && Embeds(a, b)
    ensures Embeds(a[1..], b)
    decreases |b|, 0
  {
    if Fold(a[0]) == Fold(b[0]) {
      EmbedsConsRight(a[1..], b[1..], b[0]);
      assert [b[0]] + b[1..] == b;
    } else {
      EmbedsDropFirst(a, b[1..]);
      EmbedsConsRight(a[1..], b[1..], b[0]);
      assert [b[0]] + b[1..] == b;
    }
  }

  lemma {:induction false} EmbedsConsRight(a: string, b: string, c: char)
    requires Embeds(a, b)
    ensures Embeds(a, [c] + b)
    decreases |b|, 1
  {
    var cb := [c] + b;
    assert cb[1..] == b;
    if a != [] && Fold(a[0]) == Fold(c) {
      EmbedsDropFirst(a, b);
    }
  }

  /** Embedding is transitive: two passes that only insert text compose into one. */
  lemma {:induction false} EmbedsTransitive(a: string, b: string, c: string)
    requires Embeds(a, b) && Embeds(b, c)
    ensures Embeds(a, c)
    decreases |c|
  {
    if a == [] || b == [] {
    } else if Fold(b[0]) == Fold(c[0]) {
      if Fold(a[0]) == Fold(b[0]) {
        EmbedsTransitive(a[1..], b[1..], c[1..]);
      } else {
        EmbedsTransitive(a, b[1..], c[1..]);
      }
    } else {
      EmbedsTransitive(a, b, c[1..]);
      if Fold(a[0]) == Fold(c[0]) {
        EmbedsDropFirst(a, c[1..]);
      }
    }
  }

  lemma {:induction false} EmbedsRefl(a: string)
    ensures Embeds(a, a)
    decreases |a|
  {
    if a != [] {
      EmbedsRefl(a[1..]);
    }
  }

  lemma {:induction false} EmbedsInsertLeft(a: string, b: string, x: string)
    requires Embeds(a, b)
    ensures Embeds(a, x + b)
    decreases |x|
  {
    if x == [] {
      assert x + b == b;
    } else {
      EmbedsInsertLeft(a, b, x[1..]);
      EmbedsConsRight(a, x[1..] + b, x[0]);
      assert [x[0]] + (x[1..] + b) == x + b;
    }
  }

  /** Embedding is preserved by concatenation on both sides. */
  lemma {:induction false} EmbedsAppend(a1: string, b1: string, a2: string, b2: string)
    requires Embeds(a1, b1) && Embeds(a2, b2)
    ensures Embeds(a1 + a2, b1 + b2)
    decreases |b1|
  {
    if a1 == [] {
      assert a1 + a2 == a2;
      EmbedsInsertLeft(a2, b2, b1);
    } else {
      assert (b1 + b2)[1..] == b1[1..] + b2;
      assert (a1 + a2)[1..] == a1[1..] + a2;
      if Fold(a1[0]) == Fold(b1[0]) {
        EmbedsAppend(a1[1..], b1[1..], a2, b2);
      } else {
        EmbedsAppend(a1, b1[1..], a2, b2);
      }
    }
  }

  /** A string embeds, caselessly, into any caselessly equal string. */
  lemma {:induction false} EmbedsCIEq(a: string, b: string)
    requires CIEq(a, b)
    ensures Embeds(a, b)
    decreases |a|
  {
    if a != [] {
      assert CIEq(a[1..], b[1..]) by {
        forall k | 0 <= k < |a[1..]| ensures Fold(a[1..][k]) == Fold(b[1..][k]) {
          assert a[1..][k] == a[k + 1] && b[1..][k] == b[k + 1];
        }
      }
      EmbedsCIEq(a[1..], b[1..]);
    }
  }
}
